=== FILE: README.md ===
# gossm core in Dafny

gossm is a command-line tool that finds EC2 instances reachable through AWS
Systems Manager (SSM). It opens Session Manager sessions to them, runs shell
commands on them and lists them. This project models the decision logic of
that tool and proves properties of it:

- `Validate`: the instance-id check `^i-[0-9a-f]{8,17}$`. It is modelled as
  the automaton a regular-expression engine runs, and proved equal to a
  declarative reading of the pattern.
- `Assets`: the name and the embedded-asset key of the session-manager
  plugin. The build platform is a parameter. The key is proved to read back
  to the platform.
- `Discovery`: the `Name`-tag lookup, the two paged SSM listings with their
  different stopping rules, the EC2 listing, and the join that
  `FindInstances` builds from them.
- `Command`: the `SendCommand` request, the status classification, the
  rendering of one invocation result, and one polling worker of
  `PrintCommandInvocation`.
- `Prompt`: the option lists of the target and region choosers.
- `RootConfig`: the start-up decisions of the root command. These cover the
  profile, the plugin check and install, the shared credentials file, the
  temporary credentials file, the credential source and the region.
- `ExecCmd`, `ListCmd`, `SessionCmd`: the `exec`, `list` and `start`
  commands. Each is a trace of the service calls made plus the returned
  value.

Service calls, the interactive prompts, the operating system and the AWS SDK
are not performed. Each is an input that holds the outcome the call had.
Paged responses are a sequence of per-request results. The environment and
the local files are maps. Go's unspecified map iteration order is an
explicit enumeration of the keys, and the commands' output is proved not to
depend on it. `Wrappers` and `Text` hold the result types and the string
functions of Go's standard library that the core uses.

## Model

| member | source | states |
|---|---|---|
| Validate.AcceptsIffPattern | internal/validate.go:8 | the matching automaton accepts a string exactly when it is `i-` followed by 8 to 17 lower-case hex digits and nothing else |
| Validate.ValidateInstanceID | internal/validate.go:11-16 | success if and only if the id matches the pattern; the error message contains the rejected id |
| Validate.AcceptedLength | internal/validate.go:8-16 | every accepted id is 10 to 19 characters long |
| Validate.RejectsNonLowerHex | internal/validate.go:8-16 | an upper-case letter or a letter past `f` after the prefix makes any id invalid |
| Validate.AcceptedTestVectors | internal/validate_test.go:13-15 | the three ids the tests expect to pass are accepted |
| Validate.RejectedTestVectors | internal/validate_test.go:16-23 | the eight ids the tests expect to fail are rejected |
| Assets.GetSsmPluginName | internal/assets.go:20-26 | the `.exe` name exactly when the lower-cased OS is `windows`, the bare name otherwise |
| Assets.GetAsset | internal/assets.go:15-17 | succeeds exactly for files under `assets/` in the embedded file system, and returns their bytes |
| Assets.PluginSizeMatchesPlugin | internal/assets.go:29-46 | the size lookup succeeds exactly when the read does, and reports the length of the bytes read |
| Assets.ParseGetSsmPluginKey | internal/assets.go:48-51 | reading the key back gives the lower-cased OS, the lower-cased architecture and the plugin name, so distinct platforms get distinct keys |
| Assets.KeyOfLowerPlatform | internal/assets.go:48-51 | for lower-case platform names the key is `plugin/<os>_<arch>/<name>` |
| Assets.WindowsKeyVector | internal/assets_test.go:19 | the windows/amd64 key carries the `.exe` name |
| Assets.LinuxKeyVector | internal/assets_test.go:18 | the linux/arm64 key carries the bare name |
| Discovery.GetInstanceName | internal/ssm.go:218-225 | the value of the first tag whose key is `Name`, or the empty string when no tag has that key; a non-empty name always comes from such a first tag |
| Discovery.TargetOf | internal/ssm.go:179-186 | a target holds the instance id as its name, and its display key is `<tag name>\t(<id>)` ending in that id, and its public and private DNS names are the instance's |
| Discovery.KeySuffixDeterminesId | internal/ssm.go:185 | for ids without a tab, two targets with equal display keys have equal ids |
| Discovery.IndexById | internal/ssm.go:177-188 | the id map has one entry per listed id, and each entry is named after its key |
| Discovery.IndexByIdLastWins | internal/ssm.go:181 | an id listed more than once maps to the target of its last listing |
| Discovery.CollectEc2 | internal/ssm.go:171-189 | the EC2 listing succeeds exactly when every page does; otherwise it returns the first failed page's error |
| Discovery.Paginate | internal/ssm.go:141-154 | a listing returns the ids of every page, in page order, up to the page that ends it; a failed request before that returns its error |
| Discovery.FindInstanceIdsWithConnectedSSM | internal/ssm.go:228-269 | the source's loop, which stops on a nil or empty token, computes the listing under the empty-token stopping rule |
| Discovery.RulesAgreeWithoutEmptyTokens | internal/ssm.go:150 | the nil-token rule of `FindInstances` and the empty-token rule give the same listing whenever no page carries an empty, non-nil token |
| Discovery.EmptyTokenDivergence | internal/ssm.go:250-264 | an empty token ends the connectivity probe's listing but not the discovery loop, which requests one more page |
| Discovery.JoinConnected | internal/ssm.go:207-212 | each connected instance is entered under its display key, and every entry is a connected instance under its own key |
| Discovery.FindInstances | internal/ssm.go:120-215 | the SSM listing's error comes first, then the EC2 listing's error; the call succeeds exactly when both listings succeed, and the table then holds exactly the running instances that SSM reports as connected |
| Discovery.FindInstancesTable | internal/ssm.go:202-212 | with tab-free ids, every connected instance is found under its own display key, whatever the iteration order |
| Command.BuildSendCommandInput | internal/ssm.go:291-316 | the request carries the targets' ids in target order, the shell-script document, a 60-second timeout, CloudWatch output, and the command as the single `commands` value |
| Command.Classify | internal/ssm.go:342-370 | polls again exactly for pending, inprogress and delayed; succeeds exactly for success; every other status is a failure; letter case is ignored |
| Command.ClassifyIgnoresCase | internal/ssm.go:342 | lower-casing the status first does not change its class |
| Command.Render | internal/ssm.go:343-369 | nothing is printed exactly for a pending status; a success prints two lines; a failure prints two or three |
| Command.RenderParseRoundTrip | internal/ssm.go:346-369 | for an id without `]`, a failure's lines read back to the id, the status detail and both streams; a success's lines read back to the id and the output, unless the output is literally `(no output)` |
| Command.FailedNoOutputIff | internal/ssm.go:355-368 | a failure prints `(no output)` exactly when both streams are empty |
| Command.SuccessBody | internal/ssm.go:346-351 | a success prints its header and then its output, or `(no output)` when the output is empty |
| Command.Poll | internal/ssm.go:327-371 | the worker returns exactly when it meets a cancellation, a failed call or a non-pending status, and its last effect is then a print |
| Command.PollCalls | internal/ssm.go:327-337 | every call directly follows a sleep, with at most one call per round; a worker still polling has printed nothing |
| Command.PollStopsAtDecisive | internal/ssm.go:338-369 | no retry: once a round ends the worker, later rounds are never consumed, and a cancelled final round makes no call |
| Command.CanceledEndsWithoutCall | internal/ssm.go:329-332 | an observed cancellation ends the worker with the `[canceled] <id>` line |
| Command.PollWorker | internal/ssm.go:325-372 | the source's loop produces exactly the events and the finished flag of the recursive worker |
| Prompt.TargetOptions | internal/ssm.go:95-102 | the options are the table's keys, sorted, one per key; an empty table is the `not found ec2 instances` error |
| Prompt.TargetOptionsOrderFree | internal/ssm.go:95-99 | the options do not depend on the map's iteration order |
| Prompt.AskTarget | internal/ssm.go:89-117 | returns the discovery error, the empty-table error, the prompt's error, or, for a non-empty table and a successful pick, exactly the target stored under the chosen key |
| Prompt.FallbackRegionOptions | internal/ssm.go:63-65 | after a failed region lookup, the options are the built-in region list, sorted |
| Prompt.RegionOptionsAsWritten | internal/ssm.go:56-72 | as written, the options after a successful lookup are one blank entry per region plus the returned names, sorted, so twice as many as the regions; after a failed lookup, the built-in list |
| Prompt.RegionOptions | internal/ssm.go:56-72 | as corrected, the options are exactly the returned region names (or the defaults), sorted |
| Prompt.RegionOptionsNoBlanks | internal/ssm.go:66-70 | the corrected list offers a blank entry only when the service returned a region without a name |
| Prompt.RegionOptionsBlankEntry | internal/ssm.go:67-70 | one region `us-east-1` gives `["", "us-east-1"]` as written and `["us-east-1"]` when corrected |
| Prompt.BlankRegionOffered | internal/ssm.go:66-72 | as written, a successful lookup of at least one region puts a blank option first |
| Prompt.RegionOptionsDifferOnlyInBlanks | internal/ssm.go:56-72 | the list as written and the corrected list offer the same named regions |
| Prompt.AskRegion | internal/ssm.go:56-87 | the chooser as the program runs it: fails exactly when the prompt fails, with its error; otherwise returns the option picked from the list as written, which after a successful lookup is blank or a name the service returned, and after a failed one a built-in region |
| Prompt.AskRegionCorrected | internal/ssm.go:56-87 | the chooser over the corrected list: every pick is a region the service returned |
| Prompt.AskRegionAgreesOnNamedPicks | internal/ssm.go:56-87 | for any named pick the program's chooser and the corrected one return the same region |
| RootConfig.ResolveAwsProfile | cmd/root.go:59-67 | the flag wins, then a non-empty `AWS_PROFILE`, then `default`; the profile is never empty |
| RootConfig.ResolveAwsProfileVectors | cmd/root_test.go:47-75 | the three cases of the tests: flag, environment, default |
| RootConfig.CheckPluginNeedsUpdate | cmd/root.go:71-86 | an update is needed exactly for a missing file or a size that differs from the embedded one; an error is reported exactly for a stat failure or a size failure, and then with `false`; the size is looked up only for an existing file |
| RootConfig.UpToDatePluginHasEmbeddedSize | cmd/root.go:71-86 | a plugin judged up to date exists and has exactly the length of the embedded plugin |
| RootConfig.CheckPluginNeedsUpdateVectors | cmd/root_test.go:79-115 | the cases of the tests: missing file, same size, different size, failing size lookup |
| RootConfig.InstallPluginAsWritten | cmd/root.go:175-198 | as written, the plugin step can never print the update notice |
| RootConfig.InstallPlugin | cmd/root.go:175-198 | as corrected, the update notice exactly when a plugin file existed and the create notice exactly when none did; whatever is written is the embedded plugin, with mode `0755`; after the step the file exists with the embedded size or has just been written |
| RootConfig.StalePluginAnnouncedAsCreated | cmd/root.go:179-194 | a 5-byte file against a 999-byte plugin is announced as created as written and as updated when corrected |
| RootConfig.InstallPluginAgrees | cmd/root.go:175-198 | apart from the notice's text, the code as written and the corrected step write the same bytes and stop on the same error |
| RootConfig.ResolveSharedCredentialFile | cmd/root.go:107-124 | an unset variable gives no path; a warning is printed and the variable unset exactly when the path cannot be made absolute or the file does not exist; otherwise the absolute path is returned and the environment is unchanged |
| RootConfig.ResolveSharedCredentialFileVectors | cmd/root_test.go:162-194 | the cases of the tests: unset variable, missing file, existing file |
| RootConfig.CredentialValidityVectors | cmd/root_test.go:198-233 | the validity table of the tests; an expired credential is never valid |
| RootConfig.ValidCredentialFileHasKeys | cmd/root.go:132-144 | a credential that is not expired and has both keys leaves a temporary file whose access key and secret key read back non-empty |
| RootConfig.TemporaryCredentialsRoundTrip | cmd/root.go:127-129 | for values without line breaks, the temporary file reads back to the profile and the three values written |
| RootConfig.FormatTemporaryCredentialsLines | cmd/root.go:21 | the file is four newline-terminated lines: the section, then the three keys in order |
| RootConfig.FormatTemporaryCredentialsLayout | cmd/root.go:21 | the file is the source's format string with the profile and the three values filled in |
| RootConfig.TemporaryCredentialPath | cmd/root.go:33 | the temporary file is the default credentials file name with a suffix, so it never overwrites that file |
| RootConfig.WriteTemporaryCredentialFile | cmd/root.go:137-144 | a failed write is returned and changes nothing; a successful one writes exactly the formatted credentials to the file, with the owner-only mode `0600`, and points `AWS_SHARED_CREDENTIALS_FILE` at it, leaving other variables and files unchanged |
| RootConfig.WrittenFileReadsBack | cmd/root.go:137-144 | after a write, the file the variable names reads back to the credential |
| RootConfig.LoadDefaultCredentials | cmd/root.go:227-272 | on success the credentials come from the freshly written temporary file, which the variable names, loaded from a valid default credential; the region is the flag's, else the loaded one; an invalid credential is the `not found valid credentials` error |
| RootConfig.ChooseCredentials | cmd/root.go:202-272 | a shared file with a valid credential is used as it is; one that loads without a valid credential is unset and the default branch runs; one whose configuration does not load is fatal, with the load error; without a shared file the default branch runs |
| RootConfig.CredentialVariableNamesSource | cmd/root.go:107-124 | whichever branch ran, the credentials variable names the file the configuration was loaded from: the temporary file, or a value that resolves to the absolute path of the shared file used, with the environment unchanged |
| RootConfig.SettleRegion | cmd/root.go:274-284 | the flag's region, else the configuration's own region, else the chooser's pick from the list as written; it fails exactly when both are empty and the chooser fails; an empty region can only come from the chooser |
| RootConfig.BlankRegionSettled | cmd/root.go:278-283 | with no region configured and a successful lookup, the blank option is offered and picking it settles an empty region |
| RootConfig.InitConfig | cmd/root.go:147-286 | the chooser's answer is constrained only when the chooser is reached; a plugin error is fatal; otherwise the profile is the resolved one, the flag region wins, a shared-file source is the resolved usable file, and a temporary-file source is the file the variable names |
| RootConfig.EmptyRegionComesFromChooser | cmd/root.go:274-284 | the configuration ends up without a region only when the user picked the chooser's blank entry |
| RootConfig.DefaultBranchRegion | cmd/root.go:252-284 | in the default branch, the region is the flag's, then the default configuration's, then the reloaded configuration's, and the chooser's only when all three are empty |
| ExecCmd.ValidateTargets | cmd/exec.go:44-51 | the flag ids are checked in order; the first rejected id ends the loop with its error; otherwise every id becomes a target without a tag name |
| ExecCmd.ResolveTargets | cmd/exec.go:44-77 | the targets come from the chooser when no flag is given; otherwise from the validated flags, each one in the connected listing unless the check is skipped; a failed connectivity listing returns its error, and a valid list whose ids are all connected is accepted |
| ExecCmd.BuildInvocations | cmd/exec.go:89-98 | one invocation request per target, in target order and for the sent command, and a name map from each id to its target's tag name |
| ExecCmd.NameMapLastWins | cmd/exec.go:97 | an id selected more than once maps to the tag name of its last selection |
| ExecCmd.RunExec | cmd/exec.go:33-101 | no arguments is an error before any call; skipping the check makes no connectivity request; the run succeeds exactly when the targets are settled and the send succeeds |
| ExecCmd.SendRequestOfRun | internal/ssm.go:291-316 | the request behind a run's `Sent` event goes to exactly that event's ids, with the shell-script document, a 60-second timeout, CloudWatch output on, and the joined arguments as its single command |
| ExecCmd.SuccessfulRunSendsThenPolls | cmd/exec.go:38-99 | a successful run ends by sending the space-joined arguments to the targets' ids and polling one request per target, with the name map of the targets |
| ExecCmd.InvalidFlagStopsBeforeCalls | cmd/exec.go:44-51 | the first invalid flag id ends the command with its error before any service call |
| ExecCmd.NoSendWithoutTargets | cmd/exec.go:44-84 | nothing is sent when the targets cannot be settled, and nothing is polled when the send fails |
| ExecCmd.FirstDisconnectedTargetReported | cmd/exec.go:54-67 | without `--skip-check`, the first target missing from the connected listing ends the command with an error naming it |
| ExecCmd.PolledNamesFromChooser | cmd/exec.go:69-99 | on the interactive path each polled id is labelled with the tag name of its last selected target |
| ListCmd.FormatFields | cmd/list.go:79-93 | each field is `-` when empty and passed through otherwise; no field comes out empty |
| ListCmd.FormatFieldsVectors | cmd/list_test.go:11-46 | the three cases of the tests: all populated, all empty, partly empty |
| ListCmd.PlainRowColumns | cmd/list.go:68 | for tab-free fields, the row splits on tabs into the tag name, the id and the two formatted addresses |
| ListCmd.SortedKeys | cmd/list.go:39-44 | the keys are sorted, one per table entry |
| ListCmd.TableRecords | cmd/list.go:46-73 | the header, the rule, one row per key in the given order (two records each with `--show-tags`), and the footer counting the table |
| ListCmd.FooterCount | cmd/list.go:73 | the footer's count reads back as the number of instances |
| ListCmd.RunList | cmd/list.go:23-75 | a discovery error prints nothing and is returned; an empty table prints only the notice; otherwise the table's records in sorted key order |
| ListCmd.RowsAscending | cmd/list.go:40-44 | rows come in strictly ascending key order |
| ListCmd.RunListOrderFree | cmd/list.go:40-44 | the output does not depend on the map's iteration order |
| SessionCmd.SessionTarget | cmd/session.go:33-44 | a non-blank flag is trimmed and must pass validation; otherwise the chooser's target is used |
| SessionCmd.RunSession | cmd/session.go:33-74 | the chooser is not asked when a non-blank flag is given; without a target or a session nothing is launched; a launch passes exactly five arguments and is followed by terminating the session, whose outcome is the result |
| SessionCmd.HelperFailureStillTerminates | cmd/session.go:63-74 | a failing plugin process is reported, the session is still terminated, and the outcome is unchanged |
| SessionCmd.HelperArgumentOrder | cmd/session.go:63-65 | the plugin process gets the session, the region, `StartSession`, the profile and the request, in that order |
| SessionCmd.TrimmedFlagTarget | cmd/session.go:33-38 | a flag with surrounding white space is used trimmed, and the chooser is not consulted |
| Text.TrimSpaceIdempotent | cmd/session.go:33 | trimming an already trimmed target changes nothing |
| Text.SortStringsPermutationInvariant | internal/ssm.go:99 | sorting depends only on the multiset of its input |

## Left out

- Goroutines and the `WaitGroup`: `FindInstances` runs its two listings in parallel and joins them. The model runs them one after the other; they share no state until the join.
- `PrintCommandInvocation` starts one worker per request. The model covers one worker. Workers share nothing but standard output, so interleaving of their lines is not modelled.
- Sleeps, debug timers and debug logging: no effect on results. Sleeps appear as `Slept` events only.
- Colours and `tabwriter` column alignment: printed records are plain text, and table rows keep their tab separators.
- `CallProcess`, the JSON encoding of the session and of the request, and `CreateStartSession`/`DeleteStartSession`: these are inputs holding their outcomes. `DeleteStartSession` prints a line that is not modelled.
- `AskMultiTarget`, `PrintReadyMulti`, `PrintReady` and `FormatTags`: their source is not part of this model. The chooser's result and the tag formatter are inputs.
- `getGossmHomePath`, `ensureDirectoryExists` and the `filepath.Join` of the plugin path: the plugin path is an input, and their errors are not modelled.
- `WrapError` and `panicRed`: a fatal error is a `Failure` carrying the original error, without the decoration and the exit.
- `aws.Credentials.Expired()` is a boolean field of the credential, read at the time of the check.
- Text.ToLower: lower-cases ASCII letters only. `strings.ToLower` also folds non-ASCII letters; platform names and statuses are ASCII.
- Discovery.Paginate: a request made after the given responses run out is taken to fail with `NoResponse`.
- The page size `MaxOutputResults` is a request parameter. The responses are inputs, so their size is not checked against it.
- Discovery.CollectEc2: the EC2 paginator's own token handling (`HasMorePages`/`NextPage`) is not modelled. The pages the paginator yields are an input sequence.
- The commands read `TagName` and `Tags` from a target, but `internal/ssm.go` declares `Target` without them. The command modules therefore use their own target records, `ListCmd.ListTarget` and `ExecCmd.CmdTarget`.
- ExecCmd.RunExec: `PrintCommandInvocation` is called with a name map that the version in `internal/ssm.go` does not take. The model records the requests and the name map in the `Polled` event, and the worker in `Command` labels results by id, as the source shown does.
- RootConfig.LoadDefaultCredentials: the loader's reply for the temporary file is an input, so it is not tied to the bytes just written. `RootConfig.WrittenFileReadsBack` states what those bytes hold.
- RootConfig.InitConfig: the plugin step's outcome is an input. It is modelled separately by `RootConfig.InstallPlugin`.
- The `[Expire] credential file` warning printed when a shared file holds no usable credential is not recorded.
- Command.Render: the success header and the output are printed by one call in the source. They are two records here, one per printed line.

## Findings

| source | as written | input that shows it | evidently intended | confidence | as-written member | corrected member |
|---|---|---|---|---|---|---|
| internal/ssm.go:67-70 | the region slice is made with length `len(output.Regions)` and the names are then appended, so one blank option per region precedes the names | `DescribeRegions` returns the single region `us-east-1`: the options are `["", "us-east-1"]` | the options are exactly the returned names, sorted (capacity, not length) | high; not executed | Prompt.RegionOptionsAsWritten, Prompt.RegionOptionsBlankEntry, RootConfig.BlankRegionSettled | Prompt.RegionOptions, Prompt.AskRegionCorrected |
| cmd/root.go:179-194 | the file information is fetched only when no update is needed but consulted only when one is, so `info` is always nil there and the notice is always `[create]` | an existing 5-byte plugin file against a 999-byte embedded plugin: `[create] aws ssm plugin` is printed | `[update] aws ssm plugin` when a plugin file already existed | high; not executed | RootConfig.InstallPluginAsWritten, RootConfig.StalePluginAnnouncedAsCreated | RootConfig.InstallPlugin |

The start-up decisions in `RootConfig` use the region chooser as the program
runs it, `Prompt.AskRegion`, so its blank options are reachable there.
`Prompt.AskRegionCorrected` is the chooser over the corrected list.
`Prompt.AskRegionAgreesOnNamedPicks` shows that the two differ only on a
blank pick.

=== FILE: assets.dfy ===
/** Naming of the embedded session-manager plugin (`internal/assets.go`).

    The build platform (`runtime.GOOS`, `runtime.GOARCH`) is a parameter and
    the embedded file system is a map from asset path to file contents. */
module Assets {

  import opened Wrappers
  import opened Text

  const AssetRoot: string := "assets/"
  const PluginBaseName: string := "session-manager-plugin"
  const WindowsPluginName: string := "session-manager-plugin.exe"

  /** The embedded file system: asset path to file bytes. */
  type EmbeddedFs = map<string, seq<bv8>>

  /** `GetSsmPluginName`: the `.exe` name exactly on Windows (compared
      case-insensitively), the bare name everywhere else. */
  function GetSsmPluginName(goos: string): (name: string)
    ensures ToLower(goos) == "windows" <==> name == WindowsPluginName
    ensures ToLower(goos) != "windows" <==> name == PluginBaseName
  {
    if ToLower(goos) == "windows" then WindowsPluginName else PluginBaseName
  }

  /** `getSSMPluginKey`: `plugin/<os>_<arch>/<name>` with both platform parts
      lower-cased. */
  function GetSsmPluginKey(goos: string, goarch: string): string {
    "plugin/" + ToLower(goos) + "_" + ToLower(goarch) + "/" + GetSsmPluginName(goos)
  }

  /** `GetAsset`: every asset lives under the `assets/` directory. */
  function AssetPath(filename: string): string {
    AssetRoot + filename
  }

  function GetAsset(fs: EmbeddedFs, filename: string): (r: Result<seq<bv8>, Error>)
    ensures r.Success? <==> AssetPath(filename) in fs
    ensures r.Success? ==> r.value == fs[AssetRoot + filename]
  {
    var path := AssetPath(filename);
    if path in fs then Success(fs[path]) else Failure(Error("open " + path + ": file does not exist"))
  }

  /** `GetSsmPlugin`: the plugin bytes for the platform. */
  function GetSsmPlugin(fs: EmbeddedFs, goos: string, goarch: string): Result<seq<bv8>, Error> {
    GetAsset(fs, GetSsmPluginKey(goos, goarch))
  }

  /** `GetSsmPluginSize`: the size of the same asset, without reading it. */
  function GetSsmPluginSize(fs: EmbeddedFs, goos: string, goarch: string): Result<int, Error> {
    var path := AssetPath(GetSsmPluginKey(goos, goarch));
    if path in fs then Success(|fs[path]|) else Failure(Error("open " + path + ": file does not exist"))
  }

  /** The size lookup and the read look at the same asset: the size succeeds
      exactly when the read does, and reports the length of the bytes read. */
  lemma PluginSizeMatchesPlugin(fs: EmbeddedFs, goos: string, goarch: string)
    ensures GetSsmPluginSize(fs, goos, goarch).Success? <==> GetSsmPlugin(fs, goos, goarch).Success?
    ensures GetSsmPlugin(fs, goos, goarch).Success?
            ==> GetSsmPluginSize(fs, goos, goarch).value == |GetSsmPlugin(fs, goos, goarch).value|
  {
  }

  // ---------------------------------------------------------------------
  // Reading a key back
  // ---------------------------------------------------------------------

  /** Splits a plugin key back into its operating system, architecture and
      file name. */
  function ParsePluginKey(key: string): Option<(string, string, string)> {
    if |key| < 7 || key[..7] != "plugin/" then None
    else
      var rest := key[7..];
      match IndexOf(rest, '_')
      case None => None
      case Some(i) =>
        var tail := rest[i + 1..];
        match IndexOf(tail, '/')
        case None => None
        case Some(j) => Some((rest[..i], tail[..j], tail[j + 1..]))
  }

  /** Lower-casing never introduces a character that is not an upper-case
      letter. */
  lemma ToLowerKeepsAbsent(s: string, c: char)
    requires !('a' <= c <= 'z') && c !in s
    ensures c !in ToLower(s)
  {
    var r := ToLower(s);
    forall i | 0 <= i < |s| ensures r[i] != c {
      assert s[i] != c;
    }
  }

  /** Reading back `plugin/<os>_<arch>/<name>` for any parts free of the
      separators that delimit them. */
  lemma ParseKeyParts(os: string, arch: string, name: string)
    requires '_' !in os && '/' !in os && '/' !in arch
    ensures ParsePluginKey("plugin/" + os + "_" + arch + "/" + name) == Some((os, arch, name))
  {
    var key := "plugin/" + os + "_" + arch + "/" + name;
    var rest := os + "_" + arch + "/" + name;
    assert key == "plugin/" + rest;
    assert key[..7] == "plugin/";
    assert key[7..] == rest;
    assert rest == os + ['_'] + (arch + "/" + name);
    IndexOfFirst(os, '_', arch + "/" + name);
    assert rest[..|os|] == os;
    var tail := rest[|os| + 1..];
    assert tail == arch + ['/'] + name;
    IndexOfFirst(arch, '/', name);
    assert tail[..|arch|] == arch;
    assert tail[|arch| + 1..] == name;
  }

  /** The key determines the platform: for an operating system without `_`
      or `/` and an architecture without `/`, reading the key back yields
      the lower-cased platform and the plugin name. */
  lemma ParseGetSsmPluginKey(goos: string, goarch: string)
    requires '_' !in goos && '/' !in goos && '/' !in goarch
    ensures ParsePluginKey(GetSsmPluginKey(goos, goarch))
            == Some((ToLower(goos), ToLower(goarch), GetSsmPluginName(goos)))
  {
    ToLowerKeepsAbsent(goos, '_');
    ToLowerKeepsAbsent(goos, '/');
    ToLowerKeepsAbsent(goarch, '/');
    ParseKeyParts(ToLower(goos), ToLower(goarch), GetSsmPluginName(goos));
  }

  /** For a platform whose names are already lower case, as all five
      platforms the repository's tests list are, the key is the literal
      composition `plugin/<os>_<arch>/<name>`. */
  lemma KeyOfLowerPlatform(goos: string, goarch: string)
    requires ToLower(goos) == goos && ToLower(goarch) == goarch
    ensures GetSsmPluginKey(goos, goarch)
            == "plugin/" + goos + "_" + goarch + "/"
               + (if goos == "windows" then WindowsPluginName else PluginBaseName)
  {
  }

  /** The Windows key of the repository's tests carries the `.exe` name. */
  lemma WindowsKeyVector(goos: string, goarch: string)
    requires goos == "windows" && goarch == "amd64"
    ensures GetSsmPluginKey(goos, goarch) == "plugin/windows_amd64/session-manager-plugin.exe"
  {
    forall i | 0 <= i < |goos| ensures !IsUpper(goos[i]) {
    }
    forall i | 0 <= i < |goarch| ensures !IsUpper(goarch[i]) {
    }
    ToLowerOfLower(goos);
    ToLowerOfLower(goarch);
    assert GetSsmPluginName(goos) == WindowsPluginName;
    assert "plugin/" + goos + "_" == "plugin/windows_";
    assert "plugin/windows_" + goarch + "/" == "plugin/windows_amd64/";
  }

  /** The Linux key of the repository's tests carries the bare name. */
  lemma LinuxKeyVector(goos: string, goarch: string)
    requires goos == "linux" && goarch == "arm64"
    ensures GetSsmPluginKey(goos, goarch) == "plugin/linux_arm64/session-manager-plugin"
  {
    forall i | 0 <= i < |goos| ensures !IsUpper(goos[i]) {
    }
    forall i | 0 <= i < |goarch| ensures !IsUpper(goarch[i]) {
    }
    ToLowerOfLower(goos);
    ToLowerOfLower(goarch);
    assert |goos| != |"windows"|;
    assert GetSsmPluginName(goos) == PluginBaseName;
    assert "plugin/" + goos + "_" == "plugin/linux_";
    assert "plugin/linux_" + goarch + "/" == "plugin/linux_arm64/";
  }
}

=== FILE: command.dfy ===
/** Command dispatch and result polling of `internal/ssm.go`: the
    `SendCommand` request, the rendering of one invocation result by its
    status, and one polling worker of `PrintCommandInvocation`, run
    sequentially over the observations it makes.

    Colours are not modelled: each printed record is the plain text of one
    line the format strings print, without its line break. */
module Command {

  import opened Wrappers
  import opened Text
  import Discovery

  // ---------------------------------------------------------------------
  // SendCommand input
  // ---------------------------------------------------------------------

  /** The only document sent (Linux shell scripts). */
  const RunShellScript: string := "AWS-RunShellScript"
  const CommandTimeoutSeconds: int := 60
  const CommandsParameter: string := "commands"

  datatype SendCommandInput = SendCommandInput(
    documentName: string,
    instanceIds: seq<string>,
    timeoutSeconds: int,
    cloudWatchOutputEnabled: bool,
    parameters: map<string, seq<string>>)

  /** The request `SendCommand` builds: the targets' ids in target order,
      the shell-script document, a 60-second timeout, CloudWatch output on,
      and the command as the single element of `commands`. */
  method BuildSendCommandInput(targets: seq<Discovery.Target>, command: string) returns (input: SendCommandInput)
    ensures |input.instanceIds| == |targets|
    ensures forall i :: 0 <= i < |targets| ==> input.instanceIds[i] == targets[i].name
    ensures input.documentName == RunShellScript
    ensures input.timeoutSeconds == CommandTimeoutSeconds
    ensures input.cloudWatchOutputEnabled
    ensures input.parameters.Keys == {CommandsParameter} && input.parameters[CommandsParameter] == [command]
  {
    var ids: seq<string> := [];
    for i := 0 to |targets|
      invariant |ids| == i
      invariant forall j :: 0 <= j < i ==> ids[j] == targets[j].name
    {
      ids := ids + [targets[i].name];
    }
    input := SendCommandInput(RunShellScript, ids, CommandTimeoutSeconds, true,
                              map[CommandsParameter := [command]]);
  }

  // ---------------------------------------------------------------------
  // Status classification
  // ---------------------------------------------------------------------

  /** What the worker does with a status: poll again, print success, or
      print failure. */
  datatype StatusClass = KeepPolling | Succeeded | Failed

  /** The statuses under which the worker polls again, after lower-casing. */
  predicate IsPendingStatus(lowered: string) {
    lowered == "pending" || lowered == "inprogress" || lowered == "delayed"
  }

  /** The `switch` on `strings.ToLower(status)`: three pending statuses,
      `success`, and everything else counted as failure. */
  function Classify(status: string): (c: StatusClass)
    ensures c == KeepPolling <==> IsPendingStatus(ToLower(status))
    ensures c == Succeeded <==> ToLower(status) == "success"
    ensures c == Failed <==> !IsPendingStatus(ToLower(status)) && ToLower(status) != "success"
  {
    var lowered := ToLower(status);
    if IsPendingStatus(lowered) then KeepPolling
    else if lowered == "success" then Succeeded
    else Failed
  }

  /** The classification ignores letter case. */
  lemma ClassifyIgnoresCase(status: string)
    ensures Classify(ToLower(status)) == Classify(status)
  {
    ToLowerIdempotent(status);
  }

  // ---------------------------------------------------------------------
  // Rendering one result
  // ---------------------------------------------------------------------

  /** The fields of a `GetCommandInvocation` response that the worker reads. */
  datatype Invocation = Invocation(
    instanceId: Option<string>,
    status: string,
    standardOutput: Option<string>,
    standardError: Option<string>,
    statusDetails: Option<string>)

  const NoOutput: string := "(no output)"

  function SuccessHeader(id: string): string {
    "[success][" + id + "]"
  }

  function FailedHeader(id: string, detail: string): string {
    "[failed][" + id + "] status: " + detail
  }

  function StdoutLine(text: string): string {
    "stdout: " + text
  }

  function StderrLine(text: string): string {
    "stderr: " + text
  }

  /** The lines after a failure header: each non-empty stream, or the
      no-output marker when both are empty. */
  function FailureStreams(stdout: string, stderr: string): (lines: seq<string>)
    ensures 1 <= |lines| <= 2
  {
    (if stdout != "" then [StdoutLine(stdout)] else [])
    + (if stderr != "" then [StderrLine(stderr)] else [])
    + (if stdout == "" && stderr == "" then [NoOutput] else [])
  }

  /** The records printed for one response, or `None` when its status means
      "poll again". A success prints a header and the output (or the
      no-output marker); any other status prints a header with the status
      detail and then each non-empty stream, or the marker when both are
      empty. */
  function Render(out: Invocation): (r: Option<seq<string>>)
    ensures r.None? <==> Classify(out.status) == KeepPolling
    ensures r.Some? ==> 2 <= |r.value| <= 3
    ensures Classify(out.status) == Succeeded ==> |r.value| == 2
  {
    var id := ToString(out.instanceId);
    var stdout := ToString(out.standardOutput);
    var stderr := ToString(out.standardError);
    match Classify(out.status)
    case KeepPolling => None
    case Succeeded => Some([SuccessHeader(id), if stdout == "" then NoOutput else stdout])
    case Failed => Some([FailedHeader(id, ToString(out.statusDetails))] + FailureStreams(stdout, stderr))
  }

  /** What a reader of the printed records learns about a finished command. */
  datatype Report =
    | SuccessReport(instanceId: string, stdout: string)
    | FailureReport(instanceId: string, detail: string, stdout: string, stderr: string)

  /** The report one response stands for. */
  function ReportOf(out: Invocation): Report {
    if Classify(out.status) == Succeeded
    then SuccessReport(ToString(out.instanceId), ToString(out.standardOutput))
    else FailureReport(ToString(out.instanceId), ToString(out.statusDetails),
                       ToString(out.standardOutput), ToString(out.standardError))
  }

  const SuccessPrefix: string := "[success]["
  const FailedPrefix: string := "[failed]["
  const StatusSeparator: string := "] status: "

  /** Reads a failure header back into the id, which runs to the first `]`
      after the prefix, and the status detail after the separator. */
  function ParseFailedHeader(line: string): Option<(string, string)> {
    if !HasPrefix(line, FailedPrefix) then None
    else
      var rest := line[|FailedPrefix|..];
      match IndexOf(rest, ']')
      case None => None
      case Some(i) =>
        if |rest| < i + |StatusSeparator| then None
        else Some((rest[..i], rest[i + |StatusSeparator|..]))
  }

  /** Reads the stream lines after a failure header, recognised by their
      prefixes; a missing stream reads as empty. */
  function ParseStreams(streams: seq<string>): (string, string) {
    var hasOut := |streams| > 0 && HasPrefix(streams[0], "stdout: ");
    var stdout := if hasOut then streams[0][8..] else "";
    var afterOut := if hasOut then streams[1..] else streams;
    var stderr := if |afterOut| > 0 && HasPrefix(afterOut[0], "stderr: ") then afterOut[0][8..] else "";
    (stdout, stderr)
  }

  /** Reads the printed records back into a report. */
  function ParseReport(lines: seq<string>): Option<Report> {
    if |lines| == 0 then None
    else if HasPrefix(lines[0], SuccessPrefix) && |lines| == 2 then
      var rest := lines[0][|SuccessPrefix|..];
      match IndexOf(rest, ']')
      case None => None
      case Some(i) => Some(SuccessReport(rest[..i], if lines[1] == NoOutput then "" else lines[1]))
    else
      match ParseFailedHeader(lines[0])
      case None => None
      case Some((id, detail)) =>
        var (stdout, stderr) := ParseStreams(lines[1..]);
        Some(FailureReport(id, detail, stdout, stderr))
  }

  lemma IdBeforeBracket(id: string, b: string)
    requires ']' !in id
    ensures IndexOf(id + [']'] + b, ']') == Some(|id|)
    ensures (id + [']'] + b)[..|id|] == id
  {
    IndexOfFirst(id, ']', b);
  }

  /** The printed records determine the report: for an id without `]`, and
      unless a successful command printed exactly the no-output marker
      itself, reading the records back yields the response's report. */
  lemma RenderParseRoundTrip(out: Invocation)
    requires Classify(out.status) != KeepPolling
    requires ']' !in ToString(out.instanceId)
    requires Classify(out.status) == Succeeded ==> ToString(out.standardOutput) != NoOutput
    ensures ParseReport(Render(out).value) == Some(ReportOf(out))
  {
    if Classify(out.status) == Succeeded {
      SuccessParsesBack(out);
    } else {
      FailureParsesBack(out);
    }
  }

  lemma SuccessParsesBack(out: Invocation)
    requires Classify(out.status) == Succeeded
    requires ']' !in ToString(out.instanceId)
    requires ToString(out.standardOutput) != NoOutput
    ensures ParseReport(Render(out).value) == Some(ReportOf(out))
  {
    var lines := Render(out).value;
    var id := ToString(out.instanceId);
    HasPrefixOfConcat(SuccessPrefix, id + "]");
    assert lines[0] == SuccessPrefix + (id + "]");
    assert id + "]" == id + [']'] + [];
    IdBeforeBracket(id, []);
  }

  lemma FailureParsesBack(out: Invocation)
    requires Classify(out.status) == Failed
    requires ']' !in ToString(out.instanceId)
    ensures ParseReport(Render(out).value) == Some(ReportOf(out))
  {
    var id := ToString(out.instanceId);
    var stdout := ToString(out.standardOutput);
    var stderr := ToString(out.standardError);
    var detail := ToString(out.statusDetails);
    var lines := Render(out).value;
    assert lines[1..] == FailureStreams(stdout, stderr);
    FailedHeaderParsesBack(id, detail);
    StreamsParseBack(stdout, stderr);
  }

  /** A failure header reads back to its id and detail, and is not a
      success header. */
  lemma FailedHeaderParsesBack(id: string, detail: string)
    requires ']' !in id
    ensures ParseFailedHeader(FailedHeader(id, detail)) == Some((id, detail))
    ensures !HasPrefix(FailedHeader(id, detail), SuccessPrefix)
  {
    var line := FailedHeader(id, detail);
    var rest := id + (StatusSeparator + detail);
    assert line == FailedPrefix + rest;
    HasPrefixOfConcat(FailedPrefix, rest);
    assert line[|FailedPrefix|..] == rest;
    assert rest == id + [']'] + (" status: " + detail);
    IdBeforeBracket(id, " status: " + detail);
    assert rest[|id| + |StatusSeparator|..] == detail;
    assert line[1] != SuccessPrefix[1];
  }

  /** The stream lines read back to both streams. */
  lemma StreamsParseBack(stdout: string, stderr: string)
    ensures ParseStreams(FailureStreams(stdout, stderr)) == (stdout, stderr)
  {
    var streams := FailureStreams(stdout, stderr);
    if stdout != "" {
      HasPrefixOfConcat("stdout: ", stdout);
      assert streams[0] == StdoutLine(stdout);
      if stderr != "" {
        HasPrefixOfConcat("stderr: ", stderr);
        assert streams[1..] == [StderrLine(stderr)];
      } else {
        assert streams[1..] == [];
      }
    } else if stderr != "" {
      HasPrefixOfConcat("stderr: ", stderr);
      assert streams == [StderrLine(stderr)];
      assert streams[0][3] != "stdout: "[3];
    } else {
      assert streams == [NoOutput];
      assert NoOutput[0] != 's';
    }
  }

  /** A failed command prints the no-output marker exactly when both of its
      streams are empty. */
  lemma FailedNoOutputIff(out: Invocation)
    requires Classify(out.status) == Failed
    ensures NoOutput in Render(out).value
            <==> ToString(out.standardOutput) == "" && ToString(out.standardError) == ""
  {
    var lines := Render(out).value;
    var id := ToString(out.instanceId);
    var detail := ToString(out.statusDetails);
    assert FailedHeader(id, detail)[0] == '[' != NoOutput[0];
    if ToString(out.standardOutput) != "" {
      assert StdoutLine(ToString(out.standardOutput))[0] == 's' != NoOutput[0];
    }
    if ToString(out.standardError) != "" {
      assert StderrLine(ToString(out.standardError))[0] == 's' != NoOutput[0];
    }
  }

  /** A success prints its output verbatim; the marker appears when the
      output is empty, which makes an empty output indistinguishable from
      one consisting of the marker text. */
  lemma SuccessBody(out: Invocation)
    requires Classify(out.status) == Succeeded
    ensures Render(out).value[0] == SuccessHeader(ToString(out.instanceId))
    ensures Render(out).value[1] == NoOutput
            <==> ToString(out.standardOutput) == "" || ToString(out.standardOutput) == NoOutput
  {
  }

  // ---------------------------------------------------------------------
  // One polling worker
  // ---------------------------------------------------------------------

  /** What the worker observes in one iteration of its loop: whether the
      context is already cancelled, and the response it gets if it goes on
      to call the service. */
  datatype Round = Round(canceled: bool, response: Result<Invocation, Error>)

  /** The worker's visible effects. */
  datatype Event = Slept | Called | Printed(record: string)

  /** The events of a worker so far, and whether it has returned. */
  datatype Worker = Worker(events: seq<Event>, finished: bool)

  function CanceledRecord(inputId: string): string {
    "[canceled] " + inputId
  }

  function ErrRecord(e: Error): string {
    "[err] " + e.message
  }

  function PrintAll(records: seq<string>): (events: seq<Event>)
    ensures |events| == |records|
    ensures forall i :: 0 <= i < |records| ==> events[i] == Printed(records[i])
  {
    seq(|records|, i requires 0 <= i < |records| => Printed(records[i]))
  }

  /** The number of service calls among the events. */
  function Calls(events: seq<Event>): nat {
    if |events| == 0 then 0 else (if events[0] == Called then 1 else 0) + Calls(events[1..])
  }

  lemma CallsConcat(a: seq<Event>, b: seq<Event>)
    ensures Calls(a + b) == Calls(a) + Calls(b)
  {
    if |a| > 0 {
      assert (a + b)[1..] == a[1..] + b;
      CallsConcat(a[1..], b);
    } else {
      assert a + b == b;
    }
  }

  lemma CallsOfPrints(records: seq<string>)
    ensures Calls(PrintAll(records)) == 0
  {
    var events := PrintAll(records);
    if |records| > 0 {
      assert events[1..] == PrintAll(records[1..]);
      CallsOfPrints(records[1..]);
    }
  }

  /** Every call is directly preceded by a sleep. */
  predicate SleepsBeforeCalls(events: seq<Event>) {
    forall i :: 0 <= i < |events| && events[i] == Called ==> i > 0 && events[i - 1] == Slept
  }

  predicate NoPrints(events: seq<Event>) {
    forall i :: 0 <= i < |events| ==> !events[i].Printed?
  }

  /** A round that ends the worker: cancellation seen, a failed call, or a
      status that is not pending. */
  predicate Decisive(round: Round) {
    round.canceled || round.response.Failure? || Classify(round.response.value.status) != KeepPolling
  }

  /** The worker's loop over its rounds. A cancelled round prints the
      cancellation and ends with no call; otherwise the worker sleeps and
      calls, and ends on a failed call or a non-pending status. When the
      rounds run out the worker has not yet returned. */
  function Poll(inputId: string, rounds: seq<Round>): (w: Worker)
    ensures !w.finished <==> (forall i :: 0 <= i < |rounds| ==> !Decisive(rounds[i]))
    ensures w.finished ==> |w.events| > 0 && w.events[|w.events| - 1].Printed?
  {
    if |rounds| == 0 then Worker([], false)
    else if rounds[0].canceled then Worker([Printed(CanceledRecord(inputId))], true)
    else
      match rounds[0].response
      case Failure(e) => Worker([Slept, Called] + PrintAll([ErrRecord(e)]), true)
      case Success(out) =>
        match Render(out)
        case Some(records) => Worker([Slept, Called] + PrintAll(records), true)
        case None =>
          var rest := Poll(inputId, rounds[1..]);
          assert forall i :: 1 <= i < |rounds| ==> rounds[i] == rounds[1..][i - 1];
          assert forall i :: 0 <= i < |rounds[1..]| ==> rounds[1..][i] == rounds[i + 1];
          Worker([Slept, Called] + rest.events, rest.finished)
  }

  /** Every call follows a sleep, there is at most one call per round, and
      a worker that has not returned has printed nothing and called once
      per round. */
  lemma {:induction false} PollCalls(inputId: string, rounds: seq<Round>)
    ensures var w := Poll(inputId, rounds);
            && SleepsBeforeCalls(w.events)
            && Calls(w.events) <= |rounds|
            && (!w.finished ==> NoPrints(w.events) && Calls(w.events) == |rounds|)
  {
    var w := Poll(inputId, rounds);
    if |rounds| > 0 && !rounds[0].canceled {
      if rounds[0].response.Failure? {
        var records := [ErrRecord(rounds[0].response.error)];
        CallsConcat([Slept, Called], PrintAll(records));
        CallsOfPrints(records);
      } else if Render(rounds[0].response.value).Some? {
        var records := Render(rounds[0].response.value).value;
        CallsConcat([Slept, Called], PrintAll(records));
        CallsOfPrints(records);
      } else {
        var rest := Poll(inputId, rounds[1..]);
        PollCalls(inputId, rounds[1..]);
        CallsConcat([Slept, Called], rest.events);
        assert forall i :: 2 <= i < |w.events| ==> w.events[i] == rest.events[i - 2];
      }
    }
  }

  /** No retry: once a round ends the worker, later rounds are never
      consumed; the calls made are one per round, except that a cancelled
      final round makes none. */
  lemma {:induction false} PollStopsAtDecisive(inputId: string, rounds: seq<Round>, later: seq<Round>)
    requires |rounds| > 0 && Decisive(rounds[|rounds| - 1])
    requires forall i :: 0 <= i < |rounds| - 1 ==> !Decisive(rounds[i])
    ensures Poll(inputId, rounds + later) == Poll(inputId, rounds)
    ensures Poll(inputId, rounds).finished
    ensures Calls(Poll(inputId, rounds).events)
            == if rounds[|rounds| - 1].canceled then |rounds| - 1 else |rounds|
  {
    var all := rounds + later;
    assert all[0] == rounds[0];
    if |rounds| > 1 {
      assert all[1..] == rounds[1..] + later;
      PollStopsAtDecisive(inputId, rounds[1..], later);
      var rest := Poll(inputId, rounds[1..]);
      CallsConcat([Slept, Called], rest.events);
    } else if !rounds[0].canceled {
      var w := Poll(inputId, rounds);
      if rounds[0].response.Failure? {
        var records := [ErrRecord(rounds[0].response.error)];
        CallsConcat([Slept, Called], PrintAll(records));
        CallsOfPrints(records);
      } else {
        var records := Render(rounds[0].response.value).value;
        CallsConcat([Slept, Called], PrintAll(records));
        CallsOfPrints(records);
      }
    }
  }

  /** An observed cancellation ends the worker with the cancellation record
      and no call in that round. */
  lemma {:induction false} CanceledEndsWithoutCall(inputId: string, rounds: seq<Round>)
    requires |rounds| > 0 && rounds[|rounds| - 1].canceled
    requires forall i :: 0 <= i < |rounds| - 1 ==> !Decisive(rounds[i])
    ensures var w := Poll(inputId, rounds);
            w.events[|w.events| - 1] == Printed(CanceledRecord(inputId))
  {
    if |rounds| > 1 {
      CanceledEndsWithoutCall(inputId, rounds[1..]);
    }
  }

  /** The worker's first round from position `i` on. */
  lemma PollFrom(inputId: string, rounds: seq<Round>, i: nat)
    requires i < |rounds|
    ensures rounds[i].canceled ==> Poll(inputId, rounds[i..]) == Worker([Printed(CanceledRecord(inputId))], true)
    ensures !rounds[i].canceled && rounds[i].response.Failure?
            ==> Poll(inputId, rounds[i..]) == Worker([Slept, Called] + PrintAll([ErrRecord(rounds[i].response.error)]), true)
    ensures !rounds[i].canceled && rounds[i].response.Success? && Render(rounds[i].response.value).Some?
            ==> Poll(inputId, rounds[i..]) == Worker([Slept, Called] + PrintAll(Render(rounds[i].response.value).value), true)
    ensures !rounds[i].canceled && rounds[i].response.Success? && Render(rounds[i].response.value).None?
            ==> Poll(inputId, rounds[i..])
                == Worker([Slept, Called] + Poll(inputId, rounds[i + 1..]).events, Poll(inputId, rounds[i + 1..]).finished)
  {
    assert rounds[i..][0] == rounds[i];
    assert rounds[i..][1..] == rounds[i + 1..];
  }

  /** The worker written as the source's loop: check cancellation, sleep,
      call, and then return or `continue` by status. */
  method PollWorker(inputId: string, rounds: seq<Round>) returns (events: seq<Event>, finished: bool)
    ensures Worker(events, finished) == Poll(inputId, rounds)
  {
    events := [];
    var i := 0;
    assert rounds[0..] == rounds;
    while i < |rounds|
      invariant 0 <= i <= |rounds|
      invariant Poll(inputId, rounds)
                == Worker(events + Poll(inputId, rounds[i..]).events, Poll(inputId, rounds[i..]).finished)
      decreases |rounds| - i
    {
      PollFrom(inputId, rounds, i);
      var round := rounds[i];
      if round.canceled {
        events := events + [Printed(CanceledRecord(inputId))];
        return events, true;
      }
      if round.response.Failure? {
        events := events + ([Slept, Called] + PrintAll([ErrRecord(round.response.error)]));
        return events, true;
      }
      var out := round.response.value;
      match Render(out)
      case None =>
        ghost var rest := Poll(inputId, rounds[i + 1..]).events;
        assert events + ([Slept, Called] + rest) == (events + [Slept, Called]) + rest;
        events := events + [Slept, Called];
        i := i + 1;
      case Some(records) =>
        events := events + ([Slept, Called] + PrintAll(records));
        return events, true;
    }
    assert rounds[i..] == [];
    return events, false;
  }
}

=== FILE: discovery.dfy ===
/** Instance discovery of `internal/ssm.go`: the Name-tag lookup, the paged
    listing of SSM-connected instance ids, the EC2 listing, and the inner
    join `FindInstances` builds from both.

    The service calls are not made here: each listing is given as the
    sequence of responses the service returns to successive requests, a
    failed request being a `Failure` element. The model runs through that
    sequence exactly as the source's loops do. If the loop would ask for
    another page after the last given response, the result is
    `Failure(NoResponse)`, i.e. the request is taken to fail. */
module Discovery {

  import opened Wrappers
  import opened Text

  /** Page size requested from `DescribeInstanceInformation`. */
  const MaxOutputResults: nat := 50

  /** The error of a request made after the given responses ran out. */
  const NoResponse: Error := Error("no response")

  // ---------------------------------------------------------------------
  // Tags and the Name tag
  // ---------------------------------------------------------------------

  /** An EC2 tag; either pointer may be nil. */
  datatype Tag = Tag(key: Option<string>, value: Option<string>)

  /** `i` is the first tag whose key is exactly `Name`. */
  predicate IsFirstNameTag(tags: seq<Tag>, i: int) {
    && 0 <= i < |tags|
    && ToString(tags[i].key) == "Name"
    && forall j :: 0 <= j < i ==> ToString(tags[j].key) != "Name"
  }

  /** `getInstanceName`: the value of the first `Name` tag, or "" when no
      tag has that key. */
  function GetInstanceName(tags: seq<Tag>): (name: string)
    ensures (forall i :: 0 <= i < |tags| ==> ToString(tags[i].key) != "Name") ==> name == ""
    ensures forall i :: IsFirstNameTag(tags, i) ==> name == ToString(tags[i].value)
    ensures name != "" ==> exists k :: IsFirstNameTag(tags, k) && name == ToString(tags[k].value)
  {
    if |tags| == 0 then ""
    else if ToString(tags[0].key) == "Name" then ToString(tags[0].value)
    else
      var rest := GetInstanceName(tags[1..]);
      assert forall i :: IsFirstNameTag(tags, i) ==> IsFirstNameTag(tags[1..], i - 1);
      assert forall k :: IsFirstNameTag(tags[1..], k) ==> IsFirstNameTag(tags, k + 1);
      rest
  }

  // ---------------------------------------------------------------------
  // Targets and display keys
  // ---------------------------------------------------------------------

  /** One discovered instance: `Name` holds the instance id, not its tag. */
  datatype Target = Target(name: string, publicDomain: string, privateDomain: string, displayKey: string)

  /** The key an instance is offered under: `<tag name>\t(<id>)`. */
  function DisplayKey(tagName: string, id: string): string {
    tagName + "\t(" + id + ")"
  }

  /** The key of `t` ends with its own id in parentheses after a tab. */
  predicate KeyEndsWithId(t: Target) {
    |t.displayKey| >= |t.name| + 3
    && t.displayKey[|t.displayKey| - |t.name| - 3..] == "\t(" + t.name + ")"
  }

  lemma DisplayKeyEndsWithId(tagName: string, id: string)
    ensures KeyEndsWithId(Target(id, "", "", DisplayKey(tagName, id)))
  {
    var k := DisplayKey(tagName, id);
    assert k == tagName + ("\t(" + id + ")");
  }

  /** For ids without a tab, equal keys mean equal ids: the id is the part
      after the last tab. */
  lemma KeySuffixDeterminesId(t1: Target, t2: Target)
    requires KeyEndsWithId(t1) && KeyEndsWithId(t2)
    requires '\t' !in t1.name && '\t' !in t2.name
    requires t1.displayKey == t2.displayKey
    ensures t1.name == t2.name
  {
    var k := t1.displayKey;
    var n1 := |t1.name|;
    var n2 := |t2.name|;
    if n1 < n2 {
      TabInsideLongerSuffix(k, t1.name, t2.name);
    } else if n2 < n1 {
      TabInsideLongerSuffix(k, t2.name, t1.name);
    } else {
      var s := k[|k| - n1 - 3..];
      assert t1.name == s[2..n1 + 2] == t2.name;
    }
  }

  /** A key cannot end both in a tab-free id and in a shorter one: the tab
      before the shorter id would fall inside the longer one or on its `(`. */
  lemma TabInsideLongerSuffix(k: string, short: string, long: string)
    requires |short| < |long| && '\t' !in long
    requires |k| >= |long| + 3 && k[|k| - |long| - 3..] == "\t(" + long + ")"
    ensures k[|k| - |short| - 3] != '\t'
  {
    var s2 := k[|k| - |long| - 3..];
    var q := |long| - |short|;
    assert s2[q] == k[|k| - |short| - 3];
    if q == 1 {
      assert s2[1] == '(';
    } else {
      assert s2[q] == long[q - 2];
    }
  }

  // ---------------------------------------------------------------------
  // The EC2 listing
  // ---------------------------------------------------------------------

  datatype Ec2Instance = Ec2Instance(
    instanceId: Option<string>,
    publicDnsName: Option<string>,
    privateDnsName: Option<string>,
    tags: seq<Tag>)

  datatype Reservation = Reservation(instances: seq<Ec2Instance>)

  /** One page of `DescribeInstances` (already filtered to running state). */
  datatype Ec2Page = Ec2Page(reservations: seq<Reservation>)

  function InstanceIdOf(inst: Ec2Instance): string {
    ToString(inst.instanceId)
  }

  /** The target recorded for one EC2 instance. */
  function TargetOf(inst: Ec2Instance): (t: Target)
    ensures t.name == InstanceIdOf(inst)
    ensures t.displayKey == DisplayKey(GetInstanceName(inst.tags), t.name)
    ensures t.publicDomain == ToString(inst.publicDnsName) && t.privateDomain == ToString(inst.privateDnsName)
    ensures KeyEndsWithId(t)
  {
    var id := InstanceIdOf(inst);
    DisplayKeyEndsWithId(GetInstanceName(inst.tags), id);
    Target(id, ToString(inst.publicDnsName), ToString(inst.privateDnsName),
           DisplayKey(GetInstanceName(inst.tags), id))
  }

  /** Instances of a page, reservation by reservation. */
  function PageInstances(rs: seq<Reservation>): seq<Ec2Instance> {
    if |rs| == 0 then [] else rs[0].instances + PageInstances(rs[1..])
  }

  /** Every listed instance, page by page. */
  function AllInstances(pages: seq<Ec2Page>): seq<Ec2Instance> {
    if |pages| == 0 then [] else PageInstances(pages[0].reservations) + AllInstances(pages[1..])
  }

  /** No instance after position `i` has the id of the instance at `i`. */
  predicate IsLastListing(insts: seq<Ec2Instance>, i: int)
    requires 0 <= i < |insts|
  {
    forall j :: i < j < |insts| ==> InstanceIdOf(insts[j]) != InstanceIdOf(insts[i])
  }

  function IdsOf(insts: seq<Ec2Instance>): set<string> {
    set inst | inst in insts :: InstanceIdOf(inst)
  }

  /** The map `ec2Instances[id] = target` built in listing order: one entry
      per listed id, holding the target of the LAST instance listed with it. */
  function IndexById(insts: seq<Ec2Instance>): (m: map<string, Target>)
    ensures m.Keys == IdsOf(insts)
    ensures forall id :: id in m ==> m[id].name == id && KeyEndsWithId(m[id])
  {
    if |insts| == 0 then map[]
    else
      var init := insts[..|insts| - 1];
      var last := insts[|insts| - 1];
      assert insts == init + [last];
      IndexById(init)[InstanceIdOf(last) := TargetOf(last)]
  }

  /** Later listings overwrite earlier ones: each id maps to the target of
      the last instance listed with it. */
  lemma {:induction false} IndexByIdLastWins(insts: seq<Ec2Instance>, i: nat)
    requires i < |insts| && IsLastListing(insts, i)
    ensures IndexById(insts)[InstanceIdOf(insts[i])] == TargetOf(insts[i])
  {
    var init := insts[..|insts| - 1];
    if i < |insts| - 1 {
      assert IsLastListing(init, i);
      IndexByIdLastWins(init, i);
    }
  }

  /** The EC2 goroutine: walk the pages until the first failed one, whose
      error ends the listing. */
  function CollectEc2(pages: seq<Result<Ec2Page, Error>>): (r: Result<seq<Ec2Page>, Error>)
    ensures r.Success? <==> forall i :: 0 <= i < |pages| ==> pages[i].Success?
    ensures r.Failure? ==> exists i :: 0 <= i < |pages| && pages[i] == Failure(r.error)
                                       && forall j :: 0 <= j < i ==> pages[j].Success?
    ensures r.Success? ==> |r.value| == |pages|
                           && forall i :: 0 <= i < |pages| ==> r.value[i] == pages[i].value
  {
    if |pages| == 0 then Success([])
    else match pages[0]
      case Failure(e) => Failure(e)
      case Success(p) =>
        match CollectEc2(pages[1..])
        case Failure(e) =>
          var i :| 0 <= i < |pages[1..]| && pages[1..][i] == Failure(e)
                   && forall j :: 0 <= j < i ==> pages[1..][j].Success?;
          assert pages[i + 1] == Failure(e);
          Failure(e)
        case Success(ps) => Success([p] + ps)
  }

  /** The id map built from the EC2 pages, or the first page error. */
  function FetchEc2Instances(pages: seq<Result<Ec2Page, Error>>): Result<map<string, Target>, Error> {
    match CollectEc2(pages)
    case Failure(e) => Failure(e)
    case Success(ps) => Success(IndexById(AllInstances(ps)))
  }

  // ---------------------------------------------------------------------
  // The SSM listing and its two stopping rules
  // ---------------------------------------------------------------------

  /** One page of `DescribeInstanceInformation`. */
  datatype InfoPage = InfoPage(instanceIds: seq<Option<string>>, nextToken: Option<string>)

  function PageIds(p: InfoPage): (ids: seq<string>)
    ensures |ids| == |p.instanceIds|
    ensures forall i :: 0 <= i < |ids| ==> ids[i] == ToString(p.instanceIds[i])
  {
    seq(|p.instanceIds|, i requires 0 <= i < |p.instanceIds| => ToString(p.instanceIds[i]))
  }

  /** When a listing loop stops: `FindInstances` only on a nil token,
      `FindInstanceIdsWithConnectedSSM` also on an empty one. */
  datatype StopRule = StopOnNilToken | StopOnEmptyToken

  predicate IsLastPage(rule: StopRule, p: InfoPage) {
    match rule
    case StopOnNilToken => p.nextToken.None?
    case StopOnEmptyToken => ToString(p.nextToken) == ""
  }

  /** Response `k` is the one that ends the listing: every earlier response
      succeeded and asked for more, and this one failed or is a last page. */
  predicate EndsAt(pages: seq<Result<InfoPage, Error>>, rule: StopRule, k: int) {
    && 0 <= k < |pages|
    && (pages[k].Failure? || IsLastPage(rule, pages[k].value))
    && forall j :: 0 <= j < k ==> pages[j].Success? && !IsLastPage(rule, pages[j].value)
  }

  /** The ids of responses `0..k`, in order. */
  function IdsThrough(pages: seq<Result<InfoPage, Error>>, k: nat): seq<string>
    requires k < |pages|
    requires forall j :: 0 <= j <= k ==> pages[j].Success?
  {
    PageIds(pages[0].value) + (if k == 0 then [] else IdsThrough(pages[1..], k - 1))
  }

  /** The accumulating listing loop: on success, the concatenation of every
      page's ids in page order up to the page that ends the listing; a failed
      request anywhere before that yields its error and no ids. */
  function Paginate(pages: seq<Result<InfoPage, Error>>, rule: StopRule): (r: Result<seq<string>, Error>)
    ensures forall k :: EndsAt(pages, rule, k) ==>
              r == (if pages[k].Failure? then Failure(pages[k].error) else Success(IdsThrough(pages, k)))
    ensures (forall k :: !EndsAt(pages, rule, k)) ==> r == Failure(NoResponse)
  {
    if |pages| == 0 then Failure(NoResponse)
    else match pages[0]
      case Failure(e) =>
        assert EndsAt(pages, rule, 0);
        EndsAtUnique(pages, rule, 0);
        Failure(e)
      case Success(p) =>
        if IsLastPage(rule, p) then
          assert EndsAt(pages, rule, 0);
          EndsAtUnique(pages, rule, 0);
          assert IdsThrough(pages, 0) == PageIds(p);
          Success(PageIds(p))
        else
          var rest := Paginate(pages[1..], rule);
          EndsAtShift(pages, rule);
          match rest
          case Failure(e) => Failure(e)
          case Success(ids) => Success(PageIds(p) + ids)
  }

  lemma EndsAtUnique(pages: seq<Result<InfoPage, Error>>, rule: StopRule, k: int)
    requires EndsAt(pages, rule, k)
    ensures forall k' :: EndsAt(pages, rule, k') ==> k' == k
  {
  }

  /** Past a first page that asks for more, the listing ends one position
      later in the whole sequence than in its tail. */
  lemma EndsAtShift(pages: seq<Result<InfoPage, Error>>, rule: StopRule)
    requires |pages| > 0 && pages[0].Success? && !IsLastPage(rule, pages[0].value)
    ensures forall k :: EndsAt(pages, rule, k) <==> k > 0 && EndsAt(pages[1..], rule, k - 1)
    ensures forall k :: EndsAt(pages[1..], rule, k) ==> EndsAt(pages, rule, k + 1)
  {
    forall k | EndsAt(pages, rule, k)
      ensures k > 0 && EndsAt(pages[1..], rule, k - 1)
    {
      assert forall j :: 0 <= j < k - 1 ==> pages[1..][j] == pages[j + 1];
    }
    forall k | k > 0 && EndsAt(pages[1..], rule, k - 1)
      ensures EndsAt(pages, rule, k)
    {
      assert forall j :: 1 <= j < k ==> pages[j] == pages[1..][j - 1];
    }
  }

  /** Every id of an earlier page is still in the listing. */
  function Prepend(ids: seq<string>, r: Result<seq<string>, Error>): Result<seq<string>, Error> {
    match r
    case Failure(e) => Failure(e)
    case Success(v) => Success(ids + v)
  }

  /** One step of the listing at response `i`: running out of responses,
      a failed response, a last page, or a page asking for more. */
  lemma PaginateFrom(pages: seq<Result<InfoPage, Error>>, rule: StopRule, i: nat)
    requires i <= |pages|
    ensures i == |pages| ==> Paginate(pages[i..], rule) == Failure(NoResponse)
    ensures i < |pages| && pages[i].Failure? ==> Paginate(pages[i..], rule) == Failure(pages[i].error)
    ensures i < |pages| && pages[i].Success? && IsLastPage(rule, pages[i].value)
            ==> Paginate(pages[i..], rule) == Success(PageIds(pages[i].value))
    ensures i < |pages| && pages[i].Success? && !IsLastPage(rule, pages[i].value)
            ==> Paginate(pages[i..], rule) == Prepend(PageIds(pages[i].value), Paginate(pages[i + 1..], rule))
  {
    if i < |pages| {
      assert pages[i..][0] == pages[i];
      assert pages[i..][1..] == pages[i + 1..];
    }
  }

  lemma PrependPrepend(a: seq<string>, b: seq<string>, r: Result<seq<string>, Error>)
    ensures Prepend(a, Prepend(b, r)) == Prepend(a + b, r)
  {
    if r.Success? {
      assert a + (b + r.value) == a + b + r.value;
    }
  }

  /** `FindInstanceIdsWithConnectedSSM`, written as the source's loop: one
      first request, then further requests while the returned token is
      neither nil nor empty. It computes the listing under the empty-token
      rule. */
  method FindInstanceIdsWithConnectedSSM(pages: seq<Result<InfoPage, Error>>) returns (r: Result<seq<string>, Error>)
    ensures r == Paginate(pages, StopOnEmptyToken)
  {
    ghost var spec := Paginate(pages, StopOnEmptyToken);
    PaginateFrom(pages, StopOnEmptyToken, 0);
    assert pages[0..] == pages;
    if |pages| == 0 {
      return Failure(NoResponse);
    }
    if pages[0].Failure? {
      return Failure(pages[0].error);
    }
    var instances := PageIds(pages[0].value);
    var token := ToString(pages[0].value.nextToken);
    var i := 1;
    while token != ""
      invariant 1 <= i <= |pages|
      invariant token != "" ==> spec == Prepend(instances, Paginate(pages[i..], StopOnEmptyToken))
      invariant token == "" ==> spec == Success(instances)
      decreases |pages| - i
    {
      PaginateFrom(pages, StopOnEmptyToken, i);
      if i == |pages| {
        return Failure(NoResponse);
      }
      var next := pages[i];
      if next.Failure? {
        return Failure(next.error);
      }
      PrependPrepend(instances, PageIds(next.value), Paginate(pages[i + 1..], StopOnEmptyToken));
      instances := instances + PageIds(next.value);
      token := ToString(next.value.nextToken);
      i := i + 1;
    }
    return Success(instances);
  }

  /** The two stopping rules agree on every listing in which no response
      carries an empty, non-nil token. */
  lemma {:induction false} RulesAgreeWithoutEmptyTokens(pages: seq<Result<InfoPage, Error>>)
    requires forall i :: 0 <= i < |pages| && pages[i].Success? ==> pages[i].value.nextToken != Some("")
    ensures Paginate(pages, StopOnNilToken) == Paginate(pages, StopOnEmptyToken)
  {
    if |pages| > 0 && pages[0].Success? {
      var p := pages[0].value;
      assert IsLastPage(StopOnNilToken, p) <==> IsLastPage(StopOnEmptyToken, p);
      if !IsLastPage(StopOnNilToken, p) {
        RulesAgreeWithoutEmptyTokens(pages[1..]);
      }
    }
  }

  /** An empty token ends the probe's listing but not the discovery loop,
      which asks for one more page. */
  lemma EmptyTokenDivergence(pages: seq<Result<InfoPage, Error>>)
    requires pages == [Success(InfoPage([Some("i-1")], Some(""))), Success(InfoPage([Some("i-2")], None))]
    ensures Paginate(pages, StopOnEmptyToken) == Success(["i-1"])
    ensures Paginate(pages, StopOnNilToken) == Success(["i-1", "i-2"])
  {
    assert pages[0..] == pages;
    assert PageIds(pages[0].value) == ["i-1"];
    assert PageIds(pages[1].value) == ["i-2"];
    PaginateFrom(pages, StopOnEmptyToken, 0);
    PaginateFrom(pages, StopOnNilToken, 0);
    PaginateFrom(pages, StopOnNilToken, 1);
    assert ["i-1"] + ["i-2"] == ["i-1", "i-2"];
  }

  // ---------------------------------------------------------------------
  // The join
  // ---------------------------------------------------------------------

  /** `order` lists every key of `m` exactly once: Go's iteration order over
      the id map, which the language leaves unspecified. */
  predicate IsEnumeration(order: seq<string>, keys: set<string>) {
    && (forall i :: 0 <= i < |order| ==> order[i] in keys)
    && (forall id :: id in keys ==> id in order)
    && (forall i, j :: 0 <= i < j < |order| ==> order[i] != order[j])
  }

  /** The result loop of `FindInstances`: visiting the ids in `order`, enter
      each connected instance under its display key. */
  function JoinConnected(connected: set<string>, instances: map<string, Target>, order: seq<string>): (r: map<string, Target>)
    requires forall i :: 0 <= i < |order| ==> order[i] in instances
    ensures forall i :: 0 <= i < |order| && order[i] in connected ==> instances[order[i]].displayKey in r
    ensures forall k :: k in r ==> exists i :: 0 <= i < |order| && order[i] in connected
                                           && r[k] == instances[order[i]] && k == r[k].displayKey
  {
    if |order| == 0 then map[]
    else
      var init := order[..|order| - 1];
      var id := order[|order| - 1];
      var r0 := JoinConnected(connected, instances, init);
      if id in connected then r0[instances[id].displayKey := instances[id]] else r0
  }

  /** `FindInstances`: the SSM error if that listing failed, else the EC2
      error if that one failed, else the table of every running EC2
      instance whose id the SSM listing reported, keyed by display key. */
  function FindInstances(ssmPages: seq<Result<InfoPage, Error>>, ec2Pages: seq<Result<Ec2Page, Error>>,
                         order: seq<string>): (r: Result<map<string, Target>, Error>)
    requires FetchEc2Instances(ec2Pages).Success? ==> IsEnumeration(order, FetchEc2Instances(ec2Pages).value.Keys)
    ensures Paginate(ssmPages, StopOnNilToken).Failure? ==> r == Failure(Paginate(ssmPages, StopOnNilToken).error)
    ensures Paginate(ssmPages, StopOnNilToken).Success? && FetchEc2Instances(ec2Pages).Failure?
            ==> r == Failure(FetchEc2Instances(ec2Pages).error)
    ensures r.Success? <==> Paginate(ssmPages, StopOnNilToken).Success? && FetchEc2Instances(ec2Pages).Success?
    ensures r.Success? ==>
              var connected := Paginate(ssmPages, StopOnNilToken).value;
              var ec2 := FetchEc2Instances(ec2Pages).value;
              && (forall id :: id in ec2 && id in connected ==> ec2[id].displayKey in r.value)
              && (forall k :: k in r.value ==> r.value[k].name in ec2 && r.value[k].name in connected
                                               && r.value[k] == ec2[r.value[k].name] && k == r.value[k].displayKey)
  {
    var ssm := Paginate(ssmPages, StopOnNilToken);
    var ec2 := FetchEc2Instances(ec2Pages);
    if ssm.Failure? then Failure(ssm.error)
    else if ec2.Failure? then Failure(ec2.error)
    else
      var connected := set id | id in ssm.value;
      var ps := CollectEc2(ec2Pages).value;
      var r := JoinConnected(connected, ec2.value, order);
      assert forall id :: id in ec2.value && id in ssm.value ==> ec2.value[id].displayKey in r by {
        forall id | id in ec2.value && id in ssm.value
          ensures ec2.value[id].displayKey in r
        {
          var i :| 0 <= i < |order| && order[i] == id;
        }
      }
      Success(r)
  }

  /** With tab-free ids no two instances share a display key, so the table
      holds every connected instance under its own key, whatever the
      iteration order. */
  lemma FindInstancesTable(ssmPages: seq<Result<InfoPage, Error>>, ec2Pages: seq<Result<Ec2Page, Error>>,
                           order: seq<string>, id: string)
    ensures var ec2 := FetchEc2Instances(ec2Pages);
            var ssm := Paginate(ssmPages, StopOnNilToken);
            && ec2.Success? && IsEnumeration(order, ec2.value.Keys) && ssm.Success?
            && FindInstances(ssmPages, ec2Pages, order).Success?
            && (forall x :: x in ec2.value ==> '\t' !in x)
            && id in ec2.value && id in ssm.value
            ==> FindInstances(ssmPages, ec2Pages, order).value[ec2.value[id].displayKey] == ec2.value[id]
  {
    if !(FetchEc2Instances(ec2Pages).Success? && IsEnumeration(order, FetchEc2Instances(ec2Pages).value.Keys)
         && Paginate(ssmPages, StopOnNilToken).Success? && FindInstances(ssmPages, ec2Pages, order).Success?
         && (forall x :: x in FetchEc2Instances(ec2Pages).value ==> '\t' !in x)
         && id in FetchEc2Instances(ec2Pages).value && id in Paginate(ssmPages, StopOnNilToken).value) {
      return;
    }
    var ec2 := FetchEc2Instances(ec2Pages).value;
    var r := FindInstances(ssmPages, ec2Pages, order).value;
    var ps := CollectEc2(ec2Pages).value;
    var k := ec2[id].displayKey;
    var t := r[k];
    assert t.name in ec2 && t == ec2[t.name];
    KeySuffixDeterminesId(t, ec2[id]);
  }
}

=== FILE: exec_cmd.dfy ===
/** The `exec` command of `cmd/exec.go`: join the arguments into one shell
    command, settle the targets (flag ids, validated and optionally checked
    for agent connectivity, or the interactive multi-chooser), send the
    command, and build one invocation request per target for the polling
    workers.

    The service calls and the chooser are inputs holding their outcomes;
    the run is the trace of the calls it made and the value it returned. */
module ExecCmd {

  import opened Wrappers
  import opened Text
  import Validate
  import Discovery
  import Command

  /** A target as the command layer sees it: the instance id and the value
      of its `Name` tag (empty for an id given on the command line). */
  datatype CmdTarget = CmdTarget(name: string, tagName: string)

  /** One `GetCommandInvocation` request. */
  datatype InvocationInput = InvocationInput(commandId: string, instanceId: string)

  datatype ExecEvent =
    | Probed                                               // the connectivity listing was requested
    | Chosen                                               // the interactive chooser ran
    | Sent(instanceIds: seq<string>, command: string)      // `SendCommand`
    | Polled(inputs: seq<InvocationInput>, nameMap: map<string, string>)

  datatype ExecRun = ExecRun(events: seq<ExecEvent>, result: Result<(), Error>)

  /** What the argument check rejects a call without arguments with. */
  const NotEnoughArgs: Error := Error("requires at least 1 arg(s), only received 0")

  const NotConnectedAdvice: string :=
    " is not connected to SSM.\nPossible causes:\n  - SSM agent is not running on the instance\n"
    + "  - Instance lacks IAM permissions (AmazonSSMManagedInstanceCore)\n  - Network connectivity issues\n\n"
    + "Use 'gossm list' to see available instances, or use --skip-check to bypass this validation"

  function NotConnectedError(id: string): Error {
    Error("instance " + id + NotConnectedAdvice)
  }

  // ---------------------------------------------------------------------
  // Targets from the command line
  // ---------------------------------------------------------------------

  /** Index of the first id the pattern rejects. */
  function FirstInvalid(ids: seq<string>): (r: Option<nat>)
    ensures r.None? <==> forall i :: 0 <= i < |ids| ==> Validate.MatchesInstanceIdPattern(ids[i])
    ensures r.Some? ==> r.value < |ids| && !Validate.MatchesInstanceIdPattern(ids[r.value])
                        && forall j :: 0 <= j < r.value ==> Validate.MatchesInstanceIdPattern(ids[j])
  {
    if |ids| == 0 then None
    else if !Validate.MatchesInstanceIdPattern(ids[0]) then Some(0)
    else match FirstInvalid(ids[1..])
      case None => None
      case Some(k) => Some(k + 1)
  }

  /** The flag loop: validate every id in flag order, stopping at the first
      rejected one; the accepted ids become targets without a tag name. */
  function ValidateTargets(ids: seq<string>): (r: Result<seq<CmdTarget>, Error>)
    ensures r.Failure? <==> FirstInvalid(ids).Some?
    ensures r.Failure? ==> r.error == Validate.InvalidIdError(ids[FirstInvalid(ids).value])
    ensures r.Success? ==> |r.value| == |ids| && forall i :: 0 <= i < |ids| ==> r.value[i] == CmdTarget(ids[i], "")
  {
    if |ids| == 0 then Success([])
    else
      match Validate.ValidateInstanceID(ids[0])
      case Failure(e) => Failure(e)
      case Success(_) =>
        match ValidateTargets(ids[1..])
        case Failure(e) => Failure(e)
        case Success(rest) => Success([CmdTarget(ids[0], "")] + rest)
  }

  /** The first target, in target order, missing from the connected ids. */
  function FirstDisconnected(targets: seq<CmdTarget>, connected: seq<string>): (r: Option<nat>)
    ensures r.None? <==> forall i :: 0 <= i < |targets| ==> targets[i].name in connected
    ensures r.Some? ==> r.value < |targets| && targets[r.value].name !in connected
                        && forall j :: 0 <= j < r.value ==> targets[j].name in connected
  {
    if |targets| == 0 then None
    else if targets[0].name !in connected then Some(0)
    else match FirstDisconnected(targets[1..], connected)
      case None => None
      case Some(k) => Some(k + 1)
  }

  /** Settling the targets: from the flags when any were given (validated,
      then checked against the connected listing unless the check is
      skipped), otherwise from the chooser. */
  function ResolveTargets(targetFlags: seq<string>, skipCheck: bool, probePages: seq<Result<Discovery.InfoPage, Error>>,
                          chosen: Result<seq<CmdTarget>, Error>): (r: (seq<ExecEvent>, Result<seq<CmdTarget>, Error>))
    ensures |targetFlags| == 0 ==> r == ([Chosen], chosen)
    ensures |targetFlags| > 0 && FirstInvalid(targetFlags).Some?
            ==> r == ([], Failure(Validate.InvalidIdError(targetFlags[FirstInvalid(targetFlags).value])))
    ensures |targetFlags| > 0 && skipCheck && FirstInvalid(targetFlags).None?
            ==> r.0 == [] && r.1.Success? && |r.1.value| == |targetFlags|
    ensures |targetFlags| > 0 && !skipCheck && FirstInvalid(targetFlags).None? ==> r.0 == [Probed]
    ensures |targetFlags| > 0 && !skipCheck && FirstInvalid(targetFlags).None?
            && Discovery.Paginate(probePages, Discovery.StopOnEmptyToken).Failure?
            ==> r.1 == Failure(Discovery.Paginate(probePages, Discovery.StopOnEmptyToken).error)
    ensures |targetFlags| > 0 && !skipCheck && FirstInvalid(targetFlags).None?
            && Discovery.Paginate(probePages, Discovery.StopOnEmptyToken).Success?
            && (forall i :: 0 <= i < |targetFlags| ==> targetFlags[i] in Discovery.Paginate(probePages, Discovery.StopOnEmptyToken).value)
            ==> r.1.Success?
    ensures |targetFlags| > 0 && r.1.Success?
            ==> |r.1.value| == |targetFlags| && forall i :: 0 <= i < |targetFlags| ==> r.1.value[i] == CmdTarget(targetFlags[i], "")
    ensures |targetFlags| > 0 && !skipCheck && r.1.Success?
            ==> var connected := Discovery.Paginate(probePages, Discovery.StopOnEmptyToken);
                connected.Success? && forall i :: 0 <= i < |targetFlags| ==> targetFlags[i] in connected.value
  {
    if |targetFlags| == 0 then ([Chosen], chosen)
    else
      match ValidateTargets(targetFlags)
      case Failure(e) => ([], Failure(e))
      case Success(targets) =>
        if skipCheck then ([], Success(targets))
        else
          match Discovery.Paginate(probePages, Discovery.StopOnEmptyToken)
          case Failure(e) => ([Probed], Failure(e))
          case Success(connected) =>
            match FirstDisconnected(targets, connected)
            case Some(i) => ([Probed], Failure(NotConnectedError(targets[i].name)))
            case None => ([Probed], Success(targets))
  }

  // ---------------------------------------------------------------------
  // Invocation requests and the name map
  // ---------------------------------------------------------------------

  /** One request per target, in target order, all for the same command. */
  function InvocationInputs(commandId: string, targets: seq<CmdTarget>): (inputs: seq<InvocationInput>)
    ensures |inputs| == |targets|
    ensures forall i :: 0 <= i < |targets| ==> inputs[i] == InvocationInput(commandId, targets[i].name)
  {
    seq(|targets|, i requires 0 <= i < |targets| => InvocationInput(commandId, targets[i].name))
  }

  /** The name map: each target id to its tag name, a later target
      overwriting an earlier one with the same id. */
  function NameMap(targets: seq<CmdTarget>): (m: map<string, string>)
    ensures forall i :: 0 <= i < |targets| ==> targets[i].name in m
    ensures forall id :: id in m ==> exists i :: 0 <= i < |targets| && targets[i].name == id
  {
    if |targets| == 0 then map[]
    else
      var init := targets[..|targets| - 1];
      var last := targets[|targets| - 1];
      var m := NameMap(init);
      assert forall i :: 0 <= i < |init| ==> init[i] == targets[i];
      m[last.name := last.tagName]
  }

  /** The entry of an id is the tag name of the last target carrying it. */
  lemma {:induction false} NameMapLastWins(targets: seq<CmdTarget>, i: nat)
    requires i < |targets|
    requires forall j :: i < j < |targets| ==> targets[j].name != targets[i].name
    ensures NameMap(targets)[targets[i].name] == targets[i].tagName
  {
    if i < |targets| - 1 {
      var init := targets[..|targets| - 1];
      assert init[i] == targets[i];
      NameMapLastWins(init, i);
    }
  }

  /** One more target adds one request and one name-map entry. */
  lemma InvocationsStep(commandId: string, targets: seq<CmdTarget>, i: nat)
    requires i < |targets|
    ensures NameMap(targets[..i + 1]) == NameMap(targets[..i])[targets[i].name := targets[i].tagName]
    ensures InvocationInputs(commandId, targets[..i + 1])
            == InvocationInputs(commandId, targets[..i]) + [InvocationInput(commandId, targets[i].name)]
  {
    NameMapStep(targets, i);
    InputsStep(commandId, targets, i);
  }

  lemma NameMapStep(targets: seq<CmdTarget>, i: nat)
    requires i < |targets|
    ensures NameMap(targets[..i + 1]) == NameMap(targets[..i])[targets[i].name := targets[i].tagName]
  {
    var next := targets[..i + 1];
    assert next[..|next| - 1] == targets[..i];
  }

  lemma InputsStep(commandId: string, targets: seq<CmdTarget>, i: nat)
    requires i < |targets|
    ensures InvocationInputs(commandId, targets[..i + 1])
            == InvocationInputs(commandId, targets[..i]) + [InvocationInput(commandId, targets[i].name)]
  {
    var lhs := InvocationInputs(commandId, targets[..i + 1]);
    var rhs := InvocationInputs(commandId, targets[..i]) + [InvocationInput(commandId, targets[i].name)];
    assert forall k :: 0 <= k < |lhs| ==> lhs[k] == rhs[k];
  }

  /** The request-building loop: requests appended and the name map filled
      target by target. */
  method BuildInvocations(commandId: string, targets: seq<CmdTarget>) returns (inputs: seq<InvocationInput>, nameMap: map<string, string>)
    ensures inputs == InvocationInputs(commandId, targets)
    ensures nameMap == NameMap(targets)
  {
    inputs := [];
    nameMap := map[];
    for i := 0 to |targets|
      invariant inputs == InvocationInputs(commandId, targets[..i])
      invariant nameMap == NameMap(targets[..i])
    {
      InvocationsStep(commandId, targets, i);
      inputs := inputs + [InvocationInput(commandId, targets[i].name)];
      nameMap := nameMap[targets[i].name := targets[i].tagName];
    }
    assert targets[..|targets|] == targets;
  }

  // ---------------------------------------------------------------------
  // The command
  // ---------------------------------------------------------------------

  function TargetIds(targets: seq<CmdTarget>): (ids: seq<string>)
    ensures |ids| == |targets| && forall i :: 0 <= i < |targets| ==> ids[i] == targets[i].name
  {
    seq(|targets|, i requires 0 <= i < |targets| => targets[i].name)
  }

  predicate SendsNothing(events: seq<ExecEvent>) {
    forall i :: 0 <= i < |events| ==> !events[i].Sent? && !events[i].Polled?
  }

  /** `exec`: `probePages` answer the connectivity listing, `chosen` is the
      chooser's outcome and `sent` the `SendCommand` outcome (its command
      id). */
  function RunExec(args: seq<string>, targetFlags: seq<string>, skipCheck: bool,
                   probePages: seq<Result<Discovery.InfoPage, Error>>, chosen: Result<seq<CmdTarget>, Error>,
                   sent: Result<string, Error>): (run: ExecRun)
    ensures |args| == 0 ==> run == ExecRun([], Failure(NotEnoughArgs))
    ensures skipCheck ==> Probed !in run.events
    ensures run.result.Success? <==> |args| > 0 && ResolveTargets(targetFlags, skipCheck, probePages, chosen).1.Success? && sent.Success?
  {
    if |args| == 0 then ExecRun([], Failure(NotEnoughArgs))
    else
      var command := Join(args, " ");
      var resolved := ResolveTargets(targetFlags, skipCheck, probePages, chosen);
      match resolved.1
      case Failure(e) => ExecRun(resolved.0, Failure(e))
      case Success(targets) =>
        var events := resolved.0 + [Sent(TargetIds(targets), command)];
        match sent
        case Failure(e) => ExecRun(events, Failure(e))
        case Success(commandId) =>
          ExecRun(events + [Polled(InvocationInputs(commandId, targets), NameMap(targets))], Success(()))
  }

  /** The `SendCommand` request behind a run's `Sent` event: it goes to
      exactly the event's ids, runs the joined arguments as the single
      shell command, with the shell-script document, the 60-second timeout
      and CloudWatch output on. */
  method SendRequestOfRun(args: seq<string>, targetFlags: seq<string>, skipCheck: bool,
                          probePages: seq<Result<Discovery.InfoPage, Error>>,
                          chosen: Result<seq<CmdTarget>, Error>, sent: Result<string, Error>)
    returns (input: Command.SendCommandInput)
    requires |args| > 0 && ResolveTargets(targetFlags, skipCheck, probePages, chosen).1.Success?
    ensures var before := ResolveTargets(targetFlags, skipCheck, probePages, chosen).0;
            RunExec(args, targetFlags, skipCheck, probePages, chosen, sent).events[|before|]
            == Sent(input.instanceIds, Join(args, " "))
    ensures input.parameters.Keys == {Command.CommandsParameter}
            && input.parameters[Command.CommandsParameter] == [Join(args, " ")]
    ensures input.documentName == Command.RunShellScript
    ensures input.timeoutSeconds == Command.CommandTimeoutSeconds && input.cloudWatchOutputEnabled
  {
    var targets := ResolveTargets(targetFlags, skipCheck, probePages, chosen).1.value;
    var asTargets := seq(|targets|, i requires 0 <= i < |targets| => Discovery.Target(targets[i].name, "", "", ""));
    input := Command.BuildSendCommandInput(asTargets, Join(args, " "));
    assert input.instanceIds == TargetIds(targets);
  }

  /** A successful run ends by sending the joined arguments to the targets'
      ids and polling one request per target under the returned command id. */
  lemma SuccessfulRunSendsThenPolls(args: seq<string>, targetFlags: seq<string>, skipCheck: bool,
                                    probePages: seq<Result<Discovery.InfoPage, Error>>,
                                    chosen: Result<seq<CmdTarget>, Error>, sent: Result<string, Error>)
    requires |args| > 0 && sent.Success?
    ensures var run := RunExec(args, targetFlags, skipCheck, probePages, chosen, sent);
            var resolved := ResolveTargets(targetFlags, skipCheck, probePages, chosen).1;
            resolved.Success? ==>
            && |run.events| >= 2
            && run.events[|run.events| - 2] == Sent(TargetIds(resolved.value), Join(args, " "))
            && run.events[|run.events| - 1] == Polled(InvocationInputs(sent.value, resolved.value), NameMap(resolved.value))
  {
  }

  /** Every flag id is validated before any service call: the first
      rejected one ends the command with its error and an empty trace. */
  lemma InvalidFlagStopsBeforeCalls(args: seq<string>, targetFlags: seq<string>, skipCheck: bool,
                                    probePages: seq<Result<Discovery.InfoPage, Error>>,
                                    chosen: Result<seq<CmdTarget>, Error>, sent: Result<string, Error>, i: nat)
    requires |args| > 0 && i < |targetFlags|
    requires !Validate.MatchesInstanceIdPattern(targetFlags[i])
    requires forall j :: 0 <= j < i ==> Validate.MatchesInstanceIdPattern(targetFlags[j])
    ensures RunExec(args, targetFlags, skipCheck, probePages, chosen, sent)
            == ExecRun([], Failure(Validate.InvalidIdError(targetFlags[i])))
  {
    var k := FirstInvalid(targetFlags);
    assert k.Some?;
    assert k.value == i;
  }

  /** When the targets cannot be settled nothing is sent; when the send
      fails nothing is polled. */
  lemma NoSendWithoutTargets(args: seq<string>, targetFlags: seq<string>, skipCheck: bool,
                             probePages: seq<Result<Discovery.InfoPage, Error>>,
                             chosen: Result<seq<CmdTarget>, Error>, sent: Result<string, Error>)
    ensures var run := RunExec(args, targetFlags, skipCheck, probePages, chosen, sent);
            ResolveTargets(targetFlags, skipCheck, probePages, chosen).1.Failure? ==> SendsNothing(run.events)
    ensures var run := RunExec(args, targetFlags, skipCheck, probePages, chosen, sent);
            sent.Failure? ==> forall i :: 0 <= i < |run.events| ==> !run.events[i].Polled?
  {
  }

  /** Without the skip flag, the first target the listing does not report
      ends the command with an error naming it, before anything is sent. */
  lemma FirstDisconnectedTargetReported(args: seq<string>, targetFlags: seq<string>,
                                        probePages: seq<Result<Discovery.InfoPage, Error>>,
                                        chosen: Result<seq<CmdTarget>, Error>, sent: Result<string, Error>, i: nat)
    requires |args| > 0 && i < |targetFlags|
    requires forall j :: 0 <= j < |targetFlags| ==> Validate.MatchesInstanceIdPattern(targetFlags[j])
    requires Discovery.Paginate(probePages, Discovery.StopOnEmptyToken).Success?
    requires var connected := Discovery.Paginate(probePages, Discovery.StopOnEmptyToken).value;
             targetFlags[i] !in connected && forall j :: 0 <= j < i ==> targetFlags[j] in connected
    ensures RunExec(args, targetFlags, false, probePages, chosen, sent) == ExecRun([Probed], Failure(NotConnectedError(targetFlags[i])))
  {
    var targets := ValidateTargets(targetFlags).value;
    var connected := Discovery.Paginate(probePages, Discovery.StopOnEmptyToken).value;
    var k := FirstDisconnected(targets, connected);
    assert targets[i].name !in connected;
    assert k.Some?;
    assert k.value == i;
  }

  /** The interactive path keeps the chooser's tag names, so each polled
      id is labelled with the tag name of its last selected target. */
  lemma PolledNamesFromChooser(args: seq<string>, probePages: seq<Result<Discovery.InfoPage, Error>>,
                               targets: seq<CmdTarget>, commandId: string, i: nat)
    requires |args| > 0 && i < |targets|
    requires forall j :: i < j < |targets| ==> targets[j].name != targets[i].name
    ensures var run := RunExec(args, [], false, probePages, Success(targets), Success(commandId));
            run.result.Success? && run.events[0] == Chosen
            && run.events[|run.events| - 1].nameMap[targets[i].name] == targets[i].tagName
  {
    NameMapLastWins(targets, i);
  }
}

=== FILE: list_cmd.dfy ===
/** The `list` command of `cmd/list.go`: the discovered table printed one
    row per target in ascending key order, with `-` for every empty field,
    followed by a count.

    Colours and column alignment are not modelled: the output is the
    sequence of printed records, each the text of one print call without
    its final line break. The tag block of `--show-tags` comes from a
    formatter that is an input. */
module ListCmd {

  import opened Wrappers
  import opened Text
  import Discovery
  import Prompt

  /** A target as the command layer sees it. */
  datatype ListTarget = ListTarget(name: string, tagName: string, privateDomain: string, publicDomain: string,
                                   tags: map<string, string>)

  const Dash: string := "-"
  const NoInstancesNotice: string := "No instances found with SSM agent connected."
  const Header: string := "NAME\tINSTANCE ID\tPRIVATE DNS\tPUBLIC DNS"
  const Rule: string := "----\t-----------\t-----------\t----------"
  const TagsHeader: string := "NAME\tINSTANCE ID\tPRIVATE DNS\tPUBLIC DNS\tTAGS"
  const TagsRule: string := "----\t-----------\t-----------\t----------\t----"

  function OrDash(field: string): string {
    if field == "" then Dash else field
  }

  /** `formatFields`: tag name, private DNS and public DNS, each replaced by
      `-` when empty and passed through otherwise. */
  function FormatFields(t: ListTarget): (r: (string, string, string))
    ensures r.0 != "" && r.1 != "" && r.2 != ""
    ensures t.tagName != "" ==> r.0 == t.tagName
    ensures t.privateDomain != "" ==> r.1 == t.privateDomain
    ensures t.publicDomain != "" ==> r.2 == t.publicDomain
    ensures r.0 == Dash <==> t.tagName == "" || t.tagName == Dash
    ensures r.1 == Dash <==> t.privateDomain == "" || t.privateDomain == Dash
    ensures r.2 == Dash <==> t.publicDomain == "" || t.publicDomain == Dash
  {
    (OrDash(t.tagName), OrDash(t.privateDomain), OrDash(t.publicDomain))
  }

  /** The three cases of the repository's tests. */
  lemma FormatFieldsVectors(full: ListTarget, empty: ListTarget, partial: ListTarget)
    requires full == ListTarget("i-1", "web-server", "ip-10-0-0-1.ec2.internal", "ec2-1-2-3-4.compute.amazonaws.com", map[])
    requires empty == ListTarget("i-1", "", "", "", map[])
    requires partial == ListTarget("i-1", "my-instance", "ip-10-0-0-1.ec2.internal", "", map[])
    ensures FormatFields(full) == ("web-server", "ip-10-0-0-1.ec2.internal", "ec2-1-2-3-4.compute.amazonaws.com")
    ensures FormatFields(empty) == ("-", "-", "-")
    ensures FormatFields(partial) == ("my-instance", "ip-10-0-0-1.ec2.internal", "-")
  {
  }

  // ---------------------------------------------------------------------
  // Rows
  // ---------------------------------------------------------------------

  /** A row of the aligned table: name, instance id, private and public
      DNS, separated by tabs. */
  function PlainRow(t: ListTarget): string {
    var (name, privateDns, publicDns) := FormatFields(t);
    name + "\t" + t.name + "\t" + privateDns + "\t" + publicDns
  }

  /** A row of the `--show-tags` listing: the same fields, two spaces apart. */
  function TaggedRow(t: ListTarget): string {
    var (name, privateDns, publicDns) := FormatFields(t);
    name + "  " + t.name + "  " + privateDns + "  " + publicDns
  }

  /** For fields without tabs, the second column of a row is the instance
      id and the others are the formatted fields. */
  lemma PlainRowColumns(t: ListTarget)
    requires '\t' !in t.name && '\t' !in t.tagName && '\t' !in t.privateDomain && '\t' !in t.publicDomain
    ensures Split(PlainRow(t), '\t') == [FormatFields(t).0, t.name, FormatFields(t).1, FormatFields(t).2]
  {
    var (name, privateDns, publicDns) := FormatFields(t);
    var parts := [name, t.name, privateDns, publicDns];
    assert '\t' !in Dash;
    assert Join(parts[3..], "\t") == publicDns;
    assert parts[2..][1..] == parts[3..];
    assert Join(parts[2..], "\t") == privateDns + "\t" + publicDns;
    assert parts[1..][1..] == parts[2..];
    assert Join(parts[1..], "\t") == t.name + "\t" + privateDns + "\t" + publicDns;
    assert Join(parts, "\t") == PlainRow(t);
    SplitJoin(parts, '\t');
  }

  /** The keys of the table, collected in iteration order and sorted. */
  function SortedKeys(table: map<string, ListTarget>, order: seq<string>): (keys: seq<string>)
    requires Discovery.IsEnumeration(order, table.Keys)
    ensures Sorted(keys) && |keys| == |table|
    ensures forall k :: k in keys <==> k in table
  {
    Prompt.SortedDistinctKeys(table, order);
    forall k ensures k in SortStrings(order) <==> k in table {
      SortStringsMembers(order, k);
    }
    SortStrings(order)
  }

  /** The key order does not depend on the iteration order. */
  lemma SortedKeysOrderFree(table: map<string, ListTarget>, o1: seq<string>, o2: seq<string>)
    requires Discovery.IsEnumeration(o1, table.Keys) && Discovery.IsEnumeration(o2, table.Keys)
    ensures SortedKeys(table, o1) == SortedKeys(table, o2)
  {
    assert forall k :: k in o1 <==> k in o2;
    Prompt.DistinctMultiset(o1, o2);
    SortStringsPermutationInvariant(o1, o2);
  }

  /** One record per row, in key order. */
  function PlainRows(table: map<string, ListTarget>, keys: seq<string>): (rows: seq<string>)
    requires forall i :: 0 <= i < |keys| ==> keys[i] in table
    ensures |rows| == |keys|
    ensures forall i :: 0 <= i < |keys| ==> rows[i] == PlainRow(table[keys[i]])
  {
    seq(|keys|, i requires 0 <= i < |keys| => PlainRow(table[keys[i]]))
  }

  /** Two records per row, in key order: the row and its tag block. */
  function TaggedRows(table: map<string, ListTarget>, keys: seq<string>, formatTags: map<string, string> -> string): (rows: seq<string>)
    requires forall i :: 0 <= i < |keys| ==> keys[i] in table
    ensures |rows| == 2 * |keys|
    ensures forall i :: 0 <= i < |keys| ==> rows[2 * i] == TaggedRow(table[keys[i]])
    ensures forall i :: 0 <= i < |keys| ==> rows[2 * i + 1] == formatTags(table[keys[i]].tags) + "\n"
  {
    if |keys| == 0 then []
    else
      var t := table[keys[0]];
      [TaggedRow(t), formatTags(t.tags) + "\n"] + TaggedRows(table, keys[1..], formatTags)
  }

  /** The closing record: a blank line and the number of targets. */
  const FooterPrefix: string := "\n[OK] "
  const FooterSuffix: string := " instance(s) found"

  function Footer(n: nat): string {
    FooterPrefix + NatToString(n) + FooterSuffix
  }

  /** The count in the footer reads back as the number printed. */
  lemma FooterCount(n: nat)
    ensures var f := Footer(n);
            var digits := f[|FooterPrefix|..|f| - |FooterSuffix|];
            (forall i :: 0 <= i < |digits| ==> IsDigit(digits[i])) && ParseDecimal(digits) == n
  {
    var f := Footer(n);
    assert f[|FooterPrefix|..|f| - |FooterSuffix|] == NatToString(n);
    ParseNatToString(n);
  }

  // ---------------------------------------------------------------------
  // The command
  // ---------------------------------------------------------------------

  datatype ListRun = ListRun(records: seq<string>, result: Result<(), Error>)

  /** The records of a non-empty listing: header, rule, the rows of
      `keys` in that order, and the footer counting the table. */
  function TableRecords(table: map<string, ListTarget>, keys: seq<string>, showTags: bool,
                        formatTags: map<string, string> -> string): (records: seq<string>)
    requires forall i :: 0 <= i < |keys| ==> keys[i] in table
    ensures |records| == 3 + (if showTags then 2 * |keys| else |keys|)
    ensures records[|records| - 1] == Footer(|table|)
    ensures !showTags ==> records[0] == Header && records[1] == Rule
                          && forall i :: 0 <= i < |keys| ==> records[2 + i] == PlainRow(table[keys[i]])
    ensures showTags ==> records[0] == TagsHeader && records[1] == TagsRule
                         && forall i :: 0 <= i < |keys| ==> records[2 + 2 * i] == TaggedRow(table[keys[i]])
  {
    var rows := if showTags then [TagsHeader, TagsRule] + TaggedRows(table, keys, formatTags)
                else [Header, Rule] + PlainRows(table, keys);
    rows + [Footer(|table|)]
  }

  /** `list`: the discovery error is returned with nothing printed; an empty
      table prints only the notice; otherwise the records of the table in
      ascending key order. */
  function RunList(found: Result<map<string, ListTarget>, Error>, order: seq<string>, showTags: bool,
                   formatTags: map<string, string> -> string): (run: ListRun)
    requires found.Success? ==> Discovery.IsEnumeration(order, found.value.Keys)
    ensures found.Failure? ==> run == ListRun([], Failure(found.error))
    ensures found.Success? ==> run.result == Success(())
    ensures found.Success? && |found.value| == 0 ==> run.records == [NoInstancesNotice]
    ensures found.Success? && |found.value| > 0
            ==> run.records == TableRecords(found.value, SortedKeys(found.value, order), showTags, formatTags)
  {
    match found
    case Failure(e) => ListRun([], Failure(e))
    case Success(table) =>
      if |table| == 0 then ListRun([NoInstancesNotice], Success(()))
      else ListRun(TableRecords(table, SortedKeys(table, order), showTags, formatTags), Success(()))
  }

  /** Rows come in strictly ascending key order: of two rows, the earlier
      one belongs to the smaller key. */
  lemma RowsAscending(table: map<string, ListTarget>, order: seq<string>, i: nat, j: nat)
    requires Discovery.IsEnumeration(order, table.Keys)
    requires i < j < |table|
    ensures LexLe(SortedKeys(table, order)[i], SortedKeys(table, order)[j])
    ensures SortedKeys(table, order)[i] != SortedKeys(table, order)[j]
  {
    var keys := SortedKeys(table, order);
    DistinctSorted(keys, order, i, j);
  }

  /** A sorted copy of a duplicate-free sequence is duplicate-free. */
  lemma DistinctSorted(keys: seq<string>, order: seq<string>, i: nat, j: nat)
    requires multiset(keys) == multiset(order)
    requires forall a, b :: 0 <= a < b < |order| ==> order[a] != order[b]
    requires i < j < |keys|
    ensures keys[i] != keys[j]
  {
    if keys[i] == keys[j] {
      var k := keys[i];
      var front := keys[..j];
      assert keys == front + keys[j..];
      assert keys[j..] == [k] + keys[j + 1..];
      assert front[i] == k;
      assert multiset(front)[k] >= 1;
      assert multiset(keys)[k] >= 2;
      Prompt.DistinctCount(order, k);
      assert false;
    }
  }

  /** The output does not depend on the iteration order of the table. */
  lemma RunListOrderFree(found: Result<map<string, ListTarget>, Error>, o1: seq<string>, o2: seq<string>, showTags: bool,
                         formatTags: map<string, string> -> string)
    requires found.Success? ==> Discovery.IsEnumeration(o1, found.value.Keys) && Discovery.IsEnumeration(o2, found.value.Keys)
    ensures RunList(found, o1, showTags, formatTags) == RunList(found, o2, showTags, formatTags)
  {
    if found.Success? {
      SortedKeysOrderFree(found.value, o1, o2);
    }
  }
}

=== FILE: prompt.dfy ===
/** The option lists of the two interactive choosers in `internal/ssm.go`,
    `AskTarget` and `AskRegion`. The prompt itself is an input: the option
    the user picked, or the error the prompt library returned. */
module Prompt {

  import opened Wrappers
  import opened Text
  import Discovery

  // ---------------------------------------------------------------------
  // AskTarget
  // ---------------------------------------------------------------------

  const NoInstancesError: Error := Error("not found ec2 instances")

  /** The options offered for a target table: its keys, collected in Go's
      iteration order `order` and then sorted. An empty table is an error. */
  function TargetOptions(table: map<string, Discovery.Target>, order: seq<string>): (r: Result<seq<string>, Error>)
    requires Discovery.IsEnumeration(order, table.Keys)
    ensures r.Failure? <==> |table| == 0
    ensures r.Failure? ==> r.error == NoInstancesError
    ensures r.Success? ==> Sorted(r.value) && |r.value| == |table|
    ensures r.Success? ==> forall k :: k in r.value <==> k in table
  {
    var options := SortStrings(order);
    SortedDistinctKeys(table, order);
    forall k ensures k in options <==> k in table {
      SortStringsMembers(order, k);
    }
    if |options| == 0 then Failure(NoInstancesError) else Success(options)
  }

  /** An enumeration of a map's keys has one element per key. */
  lemma SortedDistinctKeys<V>(table: map<string, V>, order: seq<string>)
    requires Discovery.IsEnumeration(order, table.Keys)
    ensures |order| == |table|
  {
    var keys := set i | 0 <= i < |order| :: order[i];
    assert keys == table.Keys;
    DistinctCard(order);
  }

  /** A duplicate-free sequence has as many elements as its set. */
  lemma {:induction false} DistinctCard(s: seq<string>)
    requires forall i, j :: 0 <= i < j < |s| ==> s[i] != s[j]
    ensures |set i | 0 <= i < |s| :: s[i]| == |s|
  {
    if |s| > 0 {
      var init := s[..|s| - 1];
      DistinctCard(init);
      var a := set i | 0 <= i < |init| :: init[i];
      var b := set i | 0 <= i < |s| :: s[i];
      assert b == a + {s[|s| - 1]};
      assert s[|s| - 1] !in a;
    }
  }

  /** The options do not depend on the iteration order. */
  lemma TargetOptionsOrderFree(table: map<string, Discovery.Target>, o1: seq<string>, o2: seq<string>)
    requires Discovery.IsEnumeration(o1, table.Keys) && Discovery.IsEnumeration(o2, table.Keys)
    ensures TargetOptions(table, o1) == TargetOptions(table, o2)
  {
    assert forall k :: k in o1 <==> k in o2;
    DistinctMultiset(o1, o2);
    SortStringsPermutationInvariant(o1, o2);
  }

  /** Two duplicate-free sequences with the same elements agree as
      multisets. */
  lemma DistinctMultiset(a: seq<string>, b: seq<string>)
    requires forall i, j :: 0 <= i < j < |a| ==> a[i] != a[j]
    requires forall i, j :: 0 <= i < j < |b| ==> b[i] != b[j]
    requires forall k :: k in a <==> k in b
    ensures multiset(a) == multiset(b)
  {
    forall k ensures multiset(a)[k] == multiset(b)[k] {
      DistinctCount(a, k);
      DistinctCount(b, k);
    }
  }

  /** In a duplicate-free sequence every element occurs once. */
  lemma {:induction false} DistinctCount(s: seq<string>, k: string)
    requires forall i, j :: 0 <= i < j < |s| ==> s[i] != s[j]
    ensures multiset(s)[k] == if k in s then 1 else 0
  {
    if |s| > 0 {
      assert s == [s[0]] + s[1..];
      DistinctCount(s[1..], k);
      assert s[0] !in s[1..];
    }
  }

  /** `AskTarget`: the discovery error, the empty-table error, the prompt
      error, or the target stored under the chosen key. */
  function AskTarget(found: Result<map<string, Discovery.Target>, Error>, order: seq<string>,
                     answer: Result<string, Error>): (r: Result<Discovery.Target, Error>)
    requires found.Success? ==> Discovery.IsEnumeration(order, found.value.Keys)
    requires found.Success? && |found.value| > 0 && answer.Success? ==> answer.value in found.value
    ensures found.Failure? ==> r == Failure(found.error)
    ensures found.Success? && |found.value| == 0 ==> r == Failure(NoInstancesError)
    ensures r.Success? ==> found.Success? && answer.Success? && r.value == found.value[answer.value]
    ensures found.Success? && |found.value| > 0 && answer.Failure? ==> r == Failure(answer.error)
    ensures found.Success? && |found.value| > 0 && answer.Success? ==> r == Success(found.value[answer.value])
  {
    if found.Failure? then Failure(found.error)
    else
      match TargetOptions(found.value, order)
      case Failure(e) => Failure(e)
      case Success(_) =>
        if answer.Failure? then Failure(answer.error) else Success(found.value[answer.value])
  }

  // ---------------------------------------------------------------------
  // AskRegion
  // ---------------------------------------------------------------------

  /** The built-in region list used when the region lookup fails. */
  const DefaultAwsRegions: seq<string> := [
    "af-south-1",
    "ap-east-1", "ap-northeast-1", "ap-northeast-2", "ap-northeast-3", "ap-south-1", "ap-southeast-2", "ap-southeast-3",
    "ca-central-1",
    "cn-north-1", "cn-northwest-1",
    "eu-central-1", "eu-north-1", "eu-south-1", "eu-west-1", "eu-west-2", "eu-west-3",
    "me-south-1",
    "sa-east-1",
    "us-east-1", "us-east-2", "us-gov-east-1", "us-gov-west-2", "us-west-1", "us-west-2"
  ]

  /** The options after a failed region lookup: a copy of the built-in
      list, sorted. */
  function FallbackRegionOptions(): (r: seq<string>)
    ensures Sorted(r)
    ensures multiset(r) == multiset(DefaultAwsRegions)
  {
    var regions := DefaultAwsRegions[..|DefaultAwsRegions|];
    assert regions == DefaultAwsRegions;
    SortStrings(regions)
  }

  /** One entry of a `DescribeRegions` response. */
  datatype RegionInfo = RegionInfo(regionName: Option<string>)

  function RegionNames(regions: seq<RegionInfo>): (names: seq<string>)
    ensures |names| == |regions|
    ensures forall i :: 0 <= i < |regions| ==> names[i] == ToString(regions[i].regionName)
  {
    seq(|regions|, i requires 0 <= i < |regions| => ToString(regions[i].regionName))
  }

  /** `n` empty strings: what `make([]string, n)` holds before any append. */
  function Blanks(n: nat): (r: seq<string>)
    ensures |r| == n
    ensures forall i :: 0 <= i < n ==> r[i] == ""
  {
    seq(n, i => "")
  }

  /** The region options as the code builds them: on success the slice is
      made with length `len(Regions)` and the names are appended after
      those empty slots. */
  function RegionOptionsAsWritten(described: Result<seq<RegionInfo>, Error>): (r: seq<string>)
    ensures Sorted(r)
    ensures described.Failure? ==> multiset(r) == multiset(DefaultAwsRegions)
    ensures described.Success? ==> |r| == 2 * |described.value|
    ensures described.Success? ==> multiset(r) == multiset(Blanks(|described.value|)) + multiset(RegionNames(described.value))
    ensures described.Success? ==> multiset(r)[""] >= |described.value|
  {
    match described
    case Failure(e) => FallbackRegionOptions()
    case Success(regions) =>
      BlankSlotsThenNames(regions);
      SortStrings(Blanks(|regions|) + RegionNames(regions))
  }

  /** The sorted slice holds the `n` empty slots and the `n` names. */
  lemma BlankSlotsThenNames(regions: seq<RegionInfo>)
    ensures var r := SortStrings(Blanks(|regions|) + RegionNames(regions));
            && |r| == 2 * |regions|
            && multiset(r) == multiset(Blanks(|regions|)) + multiset(RegionNames(regions))
            && multiset(r)[""] >= |regions|
  {
    var all := Blanks(|regions|) + RegionNames(regions);
    BlanksCount(|regions|);
    assert multiset(all) == multiset(Blanks(|regions|)) + multiset(RegionNames(regions));
  }

  lemma {:induction false} BlanksCount(n: nat)
    ensures multiset(Blanks(n))[""] == n
  {
    if n > 0 {
      assert Blanks(n) == Blanks(n - 1) + [""];
      BlanksCount(n - 1);
    }
  }

  /** The region options as evidently intended: exactly the returned region
      names (or the defaults), sorted. */
  function RegionOptions(described: Result<seq<RegionInfo>, Error>): (r: seq<string>)
    ensures Sorted(r)
    ensures described.Failure? ==> multiset(r) == multiset(DefaultAwsRegions)
    ensures described.Success? ==> multiset(r) == multiset(RegionNames(described.value))
    ensures described.Success? ==> |r| == |described.value|
  {
    match described
    case Failure(e) => FallbackRegionOptions()
    case Success(regions) => SortStrings(RegionNames(regions))
  }

  /** The corrected options offer a blank entry only when the service itself
      returned a region without a name. */
  lemma RegionOptionsNoBlanks(regions: seq<RegionInfo>)
    requires forall i :: 0 <= i < |regions| ==> ToString(regions[i].regionName) != ""
    ensures "" !in RegionOptions(Success(regions))
  {
    SortStringsMembers(RegionNames(regions), "");
  }

  /** One named region makes the code as written offer a blank option in
      front of it, which the corrected list does not. */
  lemma RegionOptionsBlankEntry(regions: seq<RegionInfo>)
    requires regions == [RegionInfo(Some("us-east-1"))]
    ensures RegionOptionsAsWritten(Success(regions)) == ["", "us-east-1"]
    ensures RegionOptions(Success(regions)) == ["us-east-1"]
  {
    OneRegionAsWritten(regions);
    OneRegionCorrected(regions);
  }

  lemma OneRegionAsWritten(regions: seq<RegionInfo>)
    requires regions == [RegionInfo(Some("us-east-1"))]
    ensures RegionOptionsAsWritten(Success(regions)) == ["", "us-east-1"]
  {
    var names := RegionNames(regions);
    assert names == ["us-east-1"];
    var expected := ["", "us-east-1"];
    EmptyLexLeast("us-east-1");
    assert Sorted(expected);
    assert Blanks(1) + names == expected;
    SortedUnique(RegionOptionsAsWritten(Success(regions)), expected);
  }

  lemma OneRegionCorrected(regions: seq<RegionInfo>)
    requires regions == [RegionInfo(Some("us-east-1"))]
    ensures RegionOptions(Success(regions)) == ["us-east-1"]
  {
    var names := RegionNames(regions);
    assert names == ["us-east-1"];
    assert Sorted(names);
    SortedUnique(RegionOptions(Success(regions)), names);
  }

  /** After a successful lookup of at least one region, the options as
      written start with a blank entry. */
  lemma BlankRegionOffered(regions: seq<RegionInfo>)
    requires |regions| > 0
    ensures var options := RegionOptionsAsWritten(Success(regions));
            "" in options && options[0] == ""
  {
    var options := RegionOptionsAsWritten(Success(regions));
    BlanksCount(|regions|);
    assert multiset(options)[""] > 0;
    var k :| 0 <= k < |options| && options[k] == "";
    if k > 0 {
      assert LexLe(options[0], options[k]);
    }
  }

  /** The two option lists offer the same named regions: they differ only
      in blank entries. */
  lemma RegionOptionsDifferOnlyInBlanks(described: Result<seq<RegionInfo>, Error>, name: string)
    requires name != ""
    ensures name in RegionOptionsAsWritten(described) <==> name in RegionOptions(described)
  {
    match described
    case Failure(_) =>
    case Success(regions) =>
      var all := Blanks(|regions|) + RegionNames(regions);
      assert RegionOptionsAsWritten(described) == SortStrings(all);
      assert RegionOptions(described) == SortStrings(RegionNames(regions));
      SortStringsMembers(all, name);
      SortStringsMembers(RegionNames(regions), name);
      assert name !in Blanks(|regions|);
      assert name in all <==> name in RegionNames(regions);
  }

  /** `AskRegion`: the prompt's error, or the option the user picked from
      the list as the code builds it, blank entries included. */
  function AskRegion(described: Result<seq<RegionInfo>, Error>, answer: Result<string, Error>): (r: Result<string, Error>)
    requires answer.Success? ==> answer.value in RegionOptionsAsWritten(described)
    ensures r.Failure? <==> answer.Failure?
    ensures r.Failure? ==> r.error == answer.error
    ensures r.Success? ==> r.value == answer.value && r.value in RegionOptionsAsWritten(described)
    ensures described.Failure? && r.Success? ==> r.value in DefaultAwsRegions
    ensures described.Success? && r.Success?
            ==> r.value == "" || exists i :: 0 <= i < |described.value| && ToString(described.value[i].regionName) == r.value
  {
    if answer.Failure? then Failure(answer.error)
    else
      AsWrittenPick(described, answer.value);
      Success(answer.value)
  }

  /** An option of the list as written is a built-in region after a failed
      lookup, and blank or a returned name after a successful one. */
  lemma AsWrittenPick(described: Result<seq<RegionInfo>, Error>, pick: string)
    requires pick in RegionOptionsAsWritten(described)
    ensures described.Failure? ==> pick in DefaultAwsRegions
    ensures described.Success?
            ==> pick == "" || exists i :: 0 <= i < |described.value| && ToString(described.value[i].regionName) == pick
  {
    match described
    case Failure(_) =>
      SameElements(FallbackRegionOptions(), DefaultAwsRegions, pick);
    case Success(regions) =>
      DescribedPick(regions, RegionOptionsAsWritten(described), pick);
  }

  lemma SameElements(a: seq<string>, b: seq<string>, x: string)
    requires multiset(a) == multiset(b) && x in a
    ensures x in b
  {
    assert x in multiset(a);
  }

  lemma DescribedPick(regions: seq<RegionInfo>, options: seq<string>, pick: string)
    requires multiset(options) == multiset(Blanks(|regions|)) + multiset(RegionNames(regions))
    requires pick in options
    ensures pick == "" || exists i :: 0 <= i < |regions| && ToString(regions[i].regionName) == pick
  {
    assert pick in multiset(options);
    if pick != "" {
      assert pick !in Blanks(|regions|);
      assert pick in multiset(RegionNames(regions));
      var i :| 0 <= i < |regions| && RegionNames(regions)[i] == pick;
    }
  }

  /** The region chooser over the corrected options: every pick is a region
      the service returned (or a built-in one). */
  function AskRegionCorrected(described: Result<seq<RegionInfo>, Error>, answer: Result<string, Error>): (r: Result<string, Error>)
    requires answer.Success? ==> answer.value in RegionOptions(described)
    ensures r.Failure? <==> answer.Failure?
    ensures r.Success? ==> r.value == answer.value && r.value in RegionOptions(described)
    ensures described.Success? && r.Success?
            ==> exists i :: 0 <= i < |described.value| && ToString(described.value[i].regionName) == r.value
  {
    if answer.Failure? then Failure(answer.error)
    else if described.Success? then
      SortStringsMembers(RegionNames(described.value), answer.value);
      Success(answer.value)
    else Success(answer.value)
  }

  /** Both choosers return the same region for any named pick; only the
      blank pick is particular to the code as written. */
  lemma AskRegionAgreesOnNamedPicks(described: Result<seq<RegionInfo>, Error>, name: string)
    requires name != "" && name in RegionOptions(described)
    ensures name in RegionOptionsAsWritten(described)
    ensures AskRegion(described, Success(name)) == AskRegionCorrected(described, Success(name))
  {
    RegionOptionsDifferOnlyInBlanks(described, name);
  }
}

=== FILE: root_config.dfy ===
/** The start-up decisions of `cmd/root.go`: the profile, whether the
    session-manager plugin must be written, which credentials file is used,
    the temporary credentials file, and where the region comes from.

    The process environment is a map from variable name to value (an absent
    key is an unset variable) and the local files are a map from path to
    contents and permission bits. Every call into the operating system or the AWS SDK is an
    input holding the outcome that call had. */
module RootConfig {

  import opened Wrappers
  import opened Text
  import Assets
  import Prompt

  type Env = map<string, string>
  /** A local file: its contents and its Unix permission bits. */
  datatype StoredFile = StoredFile(contents: string, mode: int)

  type Files = map<string, StoredFile>

  /** `0600`: the temporary credentials file is readable by its owner only. */
  const CredentialFileMode: int := 384
  /** `0755`: the plugin is executable. */
  const PluginFileMode: int := 493

  const ProfileVar: string := "AWS_PROFILE"
  const SharedCredentialsVar: string := "AWS_SHARED_CREDENTIALS_FILE"
  const DefaultProfile: string := "default"

  /** `os.Getenv`: an unset variable reads as the empty string. */
  function Getenv(env: Env, key: string): string {
    if key in env then env[key] else ""
  }

  // ---------------------------------------------------------------------
  // resolveAWSProfile
  // ---------------------------------------------------------------------

  /** The profile: the flag, else `AWS_PROFILE`, else `default`. */
  function ResolveAwsProfile(flagProfile: string, env: Env): (profile: string)
    ensures profile != ""
    ensures flagProfile != "" ==> profile == flagProfile
    ensures flagProfile == "" && Getenv(env, ProfileVar) != "" ==> profile == Getenv(env, ProfileVar)
    ensures profile != flagProfile && profile != Getenv(env, ProfileVar)
            ==> profile == DefaultProfile && flagProfile == "" && Getenv(env, ProfileVar) == ""
  {
    if flagProfile != "" then flagProfile
    else if Getenv(env, ProfileVar) != "" then Getenv(env, ProfileVar)
    else DefaultProfile
  }

  /** The three cases of the repository's tests. */
  lemma ResolveAwsProfileVectors(env: Env, unset: Env)
    requires env == map[ProfileVar := "env-profile"] && unset == map[]
    ensures ResolveAwsProfile("flag-profile", env) == "flag-profile"
    ensures ResolveAwsProfile("", env) == "env-profile"
    ensures ResolveAwsProfile("", unset) == "default"
  {
  }

  // ---------------------------------------------------------------------
  // checkPluginNeedsUpdate
  // ---------------------------------------------------------------------

  /** The outcome of `os.Stat` on one path. */
  datatype StatResult = NotExist | StatError(err: Error) | Found(size: int)

  /** `(needsUpdate, err)` of `checkPluginNeedsUpdate`, together with whether
      the embedded size was asked for. */
  datatype UpdateCheck = UpdateCheck(needsUpdate: bool, err: Option<Error>, sizeQueried: bool)

  /** A missing file needs writing; a file whose size differs from the
      embedded plugin needs rewriting; a failing `stat` (other than "does not
      exist") or size lookup is an error, reported with `false`. The size is
      looked up only for a file that exists. */
  function CheckPluginNeedsUpdate(stat: StatResult, embeddedSize: Result<int, Error>): (r: UpdateCheck)
    ensures r.err.Some? ==> !r.needsUpdate
    ensures r.sizeQueried <==> stat.Found?
    ensures r.err.Some? <==> stat.StatError? || (stat.Found? && embeddedSize.Failure?)
    ensures r.needsUpdate <==> stat.NotExist? || (stat.Found? && embeddedSize.Success? && stat.size != embeddedSize.value)
  {
    match stat
    case NotExist => UpdateCheck(true, None, false)
    case StatError(e) => UpdateCheck(false, Some(e), false)
    case Found(size) =>
      match embeddedSize
      case Failure(e) => UpdateCheck(false, Some(e), true)
      case Success(expected) => UpdateCheck(size != expected, None, true)
  }

  /** A plugin judged up to date has exactly the size of the embedded one. */
  lemma UpToDatePluginHasEmbeddedSize(stat: StatResult, fs: Assets.EmbeddedFs, goos: string, goarch: string)
    ensures var r := CheckPluginNeedsUpdate(stat, Assets.GetSsmPluginSize(fs, goos, goarch));
            !r.needsUpdate && r.err.None?
            ==> stat.Found? && Assets.GetSsmPlugin(fs, goos, goarch).Success?
                && stat.size == |Assets.GetSsmPlugin(fs, goos, goarch).value|
  {
    Assets.PluginSizeMatchesPlugin(fs, goos, goarch);
  }

  /** The cases of the repository's tests: missing file, same size,
      different size, failing size lookup. */
  lemma CheckPluginNeedsUpdateVectors(stat: StatResult, e: Error)
    requires stat == Found(5)
    ensures CheckPluginNeedsUpdate(NotExist, Success(100)) == UpdateCheck(true, None, false)
    ensures CheckPluginNeedsUpdate(stat, Success(5)) == UpdateCheck(false, None, true)
    ensures CheckPluginNeedsUpdate(stat, Success(999)) == UpdateCheck(true, None, true)
    ensures CheckPluginNeedsUpdate(stat, Failure(e)).err == Some(e)
  {
  }

  // ---------------------------------------------------------------------
  // Plugin installation in initConfig
  // ---------------------------------------------------------------------

  const CreateNotice: string := "[create] aws ssm plugin"
  const UpdateNotice: string := "[update] aws ssm plugin"

  /** What the plugin step printed, what it wrote to the plugin path, and the
      error that ended the program, if any. */
  datatype PluginStep = PluginStep(notice: Option<string>, written: Option<PluginWrite>, err: Option<Error>)

  /** The bytes written to the plugin path and the mode they are written with. */
  datatype PluginWrite = PluginWrite(bytes: seq<bv8>, mode: int)

  /** The plugin step as written: the file information is fetched again only
      when no update is needed, and consulted only when one is, so the
      notice can never be the update notice. `restat` is the outcome of that
      second `os.Stat`. */
  function InstallPluginAsWritten(stat: StatResult, restat: StatResult, fs: Assets.EmbeddedFs, goos: string, goarch: string,
                                  writeErr: Option<Error>): (r: PluginStep)
    ensures r.notice != Some(UpdateNotice)
  {
    var check := CheckPluginNeedsUpdate(stat, Assets.GetSsmPluginSize(fs, goos, goarch));
    if check.err.Some? then PluginStep(None, None, check.err)
    else
      var info: Option<int> := if !check.needsUpdate && restat.Found? then Some(restat.size) else None;
      if !check.needsUpdate then PluginStep(None, None, None)
      else
        match Assets.GetSsmPlugin(fs, goos, goarch)
        case Failure(e) => PluginStep(None, None, Some(e))
        case Success(plugin) =>
          var notice := if info.None? then CreateNotice else UpdateNotice;
          if writeErr.Some? then PluginStep(Some(notice), None, writeErr)
          else PluginStep(Some(notice), Some(PluginWrite(plugin, PluginFileMode)), None)
  }

  /** The plugin step as evidently intended: the update notice exactly when
      a plugin file was already present. */
  function InstallPlugin(stat: StatResult, fs: Assets.EmbeddedFs, goos: string, goarch: string,
                         writeErr: Option<Error>): (r: PluginStep)
    ensures r.notice == Some(UpdateNotice) <==> stat.Found? && r.notice.Some?
    ensures r.notice == Some(CreateNotice) <==> stat.NotExist? && Assets.GetSsmPlugin(fs, goos, goarch).Success?
    ensures r.written.Some? ==> r.err.None? && Assets.GetSsmPlugin(fs, goos, goarch) == Success(r.written.value.bytes)
    ensures r.written.Some? ==> r.written.value.mode == PluginFileMode
    ensures r.err.None? ==> stat.Found? || r.written.Some?
    ensures r.err.None? && r.written.None?
            ==> stat.Found? && Assets.GetSsmPlugin(fs, goos, goarch).Success?
                && stat.size == |Assets.GetSsmPlugin(fs, goos, goarch).value|
  {
    UpToDatePluginHasEmbeddedSize(stat, fs, goos, goarch);
    Assets.PluginSizeMatchesPlugin(fs, goos, goarch);
    var check := CheckPluginNeedsUpdate(stat, Assets.GetSsmPluginSize(fs, goos, goarch));
    if check.err.Some? then PluginStep(None, None, check.err)
    else if !check.needsUpdate then PluginStep(None, None, None)
    else
      match Assets.GetSsmPlugin(fs, goos, goarch)
      case Failure(e) => PluginStep(None, None, Some(e))
      case Success(plugin) =>
        var notice := if stat.Found? then UpdateNotice else CreateNotice;
        if writeErr.Some? then PluginStep(Some(notice), None, writeErr)
        else PluginStep(Some(notice), Some(PluginWrite(plugin, PluginFileMode)), None)
  }

  /** A plugin file of 5 bytes against an embedded plugin of 999 bytes: the
      code as written announces a creation, the intended step an update. */
  lemma StalePluginAnnouncedAsCreated(stat: StatResult, fs: Assets.EmbeddedFs, goos: string, goarch: string)
    requires stat == Found(5)
    requires Assets.GetSsmPluginSize(fs, goos, goarch) == Success(999)
    ensures InstallPluginAsWritten(stat, stat, fs, goos, goarch, None).notice == Some(CreateNotice)
    ensures InstallPlugin(stat, fs, goos, goarch, None).notice == Some(UpdateNotice)
  {
    Assets.PluginSizeMatchesPlugin(fs, goos, goarch);
  }

  /** Apart from the notice, the code as written and the intended step agree. */
  lemma InstallPluginAgrees(stat: StatResult, restat: StatResult, fs: Assets.EmbeddedFs, goos: string, goarch: string,
                            writeErr: Option<Error>)
    ensures InstallPluginAsWritten(stat, restat, fs, goos, goarch, writeErr).written
            == InstallPlugin(stat, fs, goos, goarch, writeErr).written
    ensures InstallPluginAsWritten(stat, restat, fs, goos, goarch, writeErr).err
            == InstallPlugin(stat, fs, goos, goarch, writeErr).err
    ensures InstallPluginAsWritten(stat, restat, fs, goos, goarch, writeErr).notice.Some?
            <==> InstallPlugin(stat, fs, goos, goarch, writeErr).notice.Some?
  {
  }

  // ---------------------------------------------------------------------
  // resolveSharedCredentialFile
  // ---------------------------------------------------------------------

  /** The path chosen, the environment afterwards, and the warning printed. */
  datatype SharedCredResolution = SharedCredResolution(path: string, env: Env, warning: Option<string>)

  const InvalidPathWarning: string := "[Warning] invalid AWS_SHARED_CREDENTIALS_FILE environments path: "
  const MissingFileWarning: string := "[Warning] not found AWS_SHARED_CREDENTIALS_FILE environments file, such as "

  /** `abs` is `filepath.Abs` and `stat` is `os.Stat`. A variable naming a
      path that cannot be made absolute, or a file that does not exist, is
      unset with a warning. Only "does not exist" rejects the file: any other
      `stat` failure lets the path through. */
  function ResolveSharedCredentialFile(env: Env, abs: string -> Result<string, Error>, stat: string -> StatResult): (r: SharedCredResolution)
    ensures Getenv(env, SharedCredentialsVar) == "" ==> r == SharedCredResolution("", env, None)
    ensures r.warning.Some? <==> Getenv(env, SharedCredentialsVar) != ""
                                 && (abs(Getenv(env, SharedCredentialsVar)).Failure?
                                     || stat(abs(Getenv(env, SharedCredentialsVar)).value).NotExist?)
    ensures r.warning.Some? ==> r.path == "" && SharedCredentialsVar !in r.env
    ensures r.warning.None? ==> r.env == env
    ensures r.warning.None? && Getenv(env, SharedCredentialsVar) != ""
            ==> abs(Getenv(env, SharedCredentialsVar)) == Success(r.path) && !stat(r.path).NotExist?
  {
    var file := Getenv(env, SharedCredentialsVar);
    if file == "" then SharedCredResolution("", env, None)
    else
      match abs(file)
      case Failure(e) => SharedCredResolution("", env - {SharedCredentialsVar}, Some(InvalidPathWarning + e.message))
      case Success(absPath) =>
        if stat(absPath).NotExist? then
          SharedCredResolution("", env - {SharedCredentialsVar}, Some(MissingFileWarning + absPath))
        else SharedCredResolution(absPath, env, None)
  }

  /** The cases of the repository's tests: unset variable, missing file,
      existing file. */
  lemma ResolveSharedCredentialFileVectors(env: Env, abs: string -> Result<string, Error>, stat: string -> StatResult)
    requires Getenv(env, SharedCredentialsVar) != ""
    requires abs(Getenv(env, SharedCredentialsVar)).Success? && abs(Getenv(env, SharedCredentialsVar)).value != ""
    ensures ResolveSharedCredentialFile(map[], abs, stat).path == ""
    ensures stat(abs(Getenv(env, SharedCredentialsVar)).value).NotExist?
            ==> ResolveSharedCredentialFile(env, abs, stat).path == ""
                && SharedCredentialsVar !in ResolveSharedCredentialFile(env, abs, stat).env
    ensures stat(abs(Getenv(env, SharedCredentialsVar)).value).Found?
            ==> ResolveSharedCredentialFile(env, abs, stat).path == abs(Getenv(env, SharedCredentialsVar)).value
  {
  }

  // ---------------------------------------------------------------------
  // Credentials and the temporary credentials file
  // ---------------------------------------------------------------------

  /** `aws.Credentials`; `expired` is the verdict of `Expired()` at the time
      of the call. */
  datatype Credentials = Credentials(accessKeyId: string, secretAccessKey: string, sessionToken: string, expired: bool)

  predicate IsCredentialValid(cred: Credentials) {
    !cred.expired && cred.accessKeyId != "" && cred.secretAccessKey != ""
  }

  /** The table of the repository's tests, plus: an expired credential is
      never valid, whatever its keys. */
  lemma CredentialValidityVectors(cred: Credentials)
    ensures IsCredentialValid(Credentials("AKID", "SECRET", "", false))
    ensures !IsCredentialValid(Credentials("", "SECRET", "", false))
    ensures !IsCredentialValid(Credentials("AKID", "", "", false))
    ensures !IsCredentialValid(Credentials("", "", "", false))
    ensures cred.expired ==> !IsCredentialValid(cred)
  {
  }

  const AccessKeyPrefix: string := "aws_access_key_id = "
  const SecretKeyPrefix: string := "aws_secret_access_key = "
  const SessionTokenPrefix: string := "aws_session_token = "

  /** The lines of the temporary credentials file: an INI section named
      after the profile, then the three keys. */
  function CredentialLines(profile: string, accessKey: string, secretKey: string, sessionToken: string): seq<string> {
    ["[" + profile + "]", AccessKeyPrefix + accessKey, SecretKeyPrefix + secretKey, SessionTokenPrefix + sessionToken]
  }

  /** `formatTemporaryCredentials`: the four lines, each ended by a line
      break. */
  function FormatTemporaryCredentials(profile: string, accessKey: string, secretKey: string, sessionToken: string): string {
    Join(CredentialLines(profile, accessKey, secretKey, sessionToken) + [""], "\n")
  }

  /** The four values read back from a credentials file. */
  datatype CredentialEntry = CredentialEntry(profile: string, accessKey: string, secretKey: string, sessionToken: string)

  function StripPrefix(s: string, prefix: string): (r: Option<string>)
    ensures r.Some? <==> HasPrefix(s, prefix)
    ensures r.Some? ==> s == prefix + r.value
  {
    if HasPrefix(s, prefix) then
      assert s == s[..|prefix|] + s[|prefix|..];
      Some(s[|prefix|..])
    else None
  }

  /** `[name]` gives `name`. */
  function SectionName(line: string): (r: Option<string>)
    ensures r.Some? ==> line == "[" + r.value + "]"
  {
    if |line| >= 2 && line[0] == '[' && line[|line| - 1] == ']' then
      assert line == "[" + line[1..|line| - 1] + "]";
      Some(line[1..|line| - 1])
    else None
  }

  /** Reads a file laid out as `formatTemporaryCredentials` lays it out. */
  function ParseTemporaryCredentials(text: string): Option<CredentialEntry> {
    var lines := Split(text, '\n');
    if |lines| != 5 || lines[4] != "" then None
    else
      match (SectionName(lines[0]), StripPrefix(lines[1], AccessKeyPrefix),
             StripPrefix(lines[2], SecretKeyPrefix), StripPrefix(lines[3], SessionTokenPrefix))
      case (Some(p), Some(a), Some(s), Some(t)) => Some(CredentialEntry(p, a, s, t))
      case _ => None
  }

  /** A line made of line-break-free parts has no line break. */
  lemma JoinedLineFree(a: string, b: string)
    requires '\n' !in a && '\n' !in b
    ensures '\n' !in a + b
  {
    assert forall i :: 0 <= i < |a + b| ==> (a + b)[i] == if i < |a| then a[i] else b[i - |a|];
  }

  /** The file holds four newline-terminated lines: the section and the three
      keys, in that order. */
  lemma FormatTemporaryCredentialsLines(profile: string, accessKey: string, secretKey: string, sessionToken: string)
    requires '\n' !in profile && '\n' !in accessKey && '\n' !in secretKey && '\n' !in sessionToken
    ensures Split(FormatTemporaryCredentials(profile, accessKey, secretKey, sessionToken), '\n')
            == CredentialLines(profile, accessKey, secretKey, sessionToken) + [""]
  {
    JoinedLineFree("[", profile);
    JoinedLineFree("[" + profile, "]");
    JoinedLineFree(AccessKeyPrefix, accessKey);
    JoinedLineFree(SecretKeyPrefix, secretKey);
    JoinedLineFree(SessionTokenPrefix, sessionToken);
    var parts := CredentialLines(profile, accessKey, secretKey, sessionToken) + [""];
    SplitJoin(parts, '\n');
  }

  /** Reading the temporary file back yields the profile and the three
      values written, for values without line breaks. */
  lemma TemporaryCredentialsRoundTrip(profile: string, accessKey: string, secretKey: string, sessionToken: string)
    requires '\n' !in profile && '\n' !in accessKey && '\n' !in secretKey && '\n' !in sessionToken
    ensures ParseTemporaryCredentials(FormatTemporaryCredentials(profile, accessKey, secretKey, sessionToken))
            == Some(CredentialEntry(profile, accessKey, secretKey, sessionToken))
  {
    FormatTemporaryCredentialsLines(profile, accessKey, secretKey, sessionToken);
    var l0 := "[" + profile + "]";
    assert l0[1..|l0| - 1] == profile;
    HasPrefixOfConcat(AccessKeyPrefix, accessKey);
    HasPrefixOfConcat(SecretKeyPrefix, secretKey);
    HasPrefixOfConcat(SessionTokenPrefix, sessionToken);
  }

  /** The file is the format string of the source with the four values
      filled in. */
  lemma FormatTemporaryCredentialsLayout(profile: string, accessKey: string, secretKey: string, sessionToken: string)
    ensures FormatTemporaryCredentials(profile, accessKey, secretKey, sessionToken)
            == "[" + profile + "]\n" + AccessKeyPrefix + accessKey + "\n" + SecretKeyPrefix + secretKey
               + "\n" + SessionTokenPrefix + sessionToken + "\n"
  {
    var lines := CredentialLines(profile, accessKey, secretKey, sessionToken) + [""];
    var l3 := SessionTokenPrefix + sessionToken;
    var l2 := SecretKeyPrefix + secretKey;
    var l1 := AccessKeyPrefix + accessKey;
    var j3 := Join(lines[3..], "\n");
    assert lines[3..][0] == l3 && lines[3..][1..] == [""];
    assert Join([""], "\n") == "";
    assert l3 + "\n" + "" == l3 + "\n";
    assert j3 == l3 + "\n";
    var j2 := Join(lines[2..], "\n");
    assert lines[2..][1..] == lines[3..];
    assert j2 == l2 + "\n" + j3;
    var j1 := Join(lines[1..], "\n");
    assert lines[1..][1..] == lines[2..];
    assert j1 == l1 + "\n" + j2;
    assert Join(lines, "\n") == "[" + profile + "]" + "\n" + j1;
  }

  /** `_credentialWithTemporary`: the default credentials file name with
      `_temporary` appended. */
  function TemporaryCredentialPath(defaultCredentialsFile: string): (path: string)
    ensures HasPrefix(path, defaultCredentialsFile) && path != defaultCredentialsFile
  {
    HasPrefixOfConcat(defaultCredentialsFile, "_temporary");
    defaultCredentialsFile + "_temporary"
  }

  /** The error of the write, the environment and the files afterwards. */
  datatype WriteOutcome = WriteOutcome(err: Option<Error>, env: Env, files: Files)

  /** `writeTemporaryCredentialFile`: writes the formatted credentials to
      `tempPath` and points `AWS_SHARED_CREDENTIALS_FILE` at it; a failed
      write (`writeErr`) is returned and leaves the variable alone. */
  function WriteTemporaryCredentialFile(profile: string, cred: Credentials, tempPath: string,
                                        writeErr: Option<Error>, env: Env, files: Files): (r: WriteOutcome)
    ensures r.err == writeErr
    ensures r.err.Some? ==> r.env == env && r.files == files
    ensures r.err.None? ==> Getenv(r.env, SharedCredentialsVar) == tempPath && tempPath in r.files
    ensures r.err.None? ==> r.files[tempPath].contents
                            == FormatTemporaryCredentials(profile, cred.accessKeyId, cred.secretAccessKey, cred.sessionToken)
    ensures r.err.None? ==> r.files[tempPath].mode == CredentialFileMode
    ensures r.err.None? ==> forall k :: k != SharedCredentialsVar ==> Getenv(r.env, k) == Getenv(env, k)
    ensures r.err.None? ==> forall p :: p != tempPath && p in files ==> p in r.files && r.files[p] == files[p]
  {
    if writeErr.Some? then WriteOutcome(writeErr, env, files)
    else
      var data := FormatTemporaryCredentials(profile, cred.accessKeyId, cred.secretAccessKey, cred.sessionToken);
      WriteOutcome(None, env[SharedCredentialsVar := tempPath], files[tempPath := StoredFile(data, CredentialFileMode)])
  }

  /** After a successful write, the file the variable names reads back as
      the profile and the credential's three values. */
  lemma WrittenFileReadsBack(profile: string, cred: Credentials, tempPath: string, env: Env, files: Files)
    requires '\n' !in profile && '\n' !in cred.accessKeyId && '\n' !in cred.secretAccessKey && '\n' !in cred.sessionToken
    ensures var r := WriteTemporaryCredentialFile(profile, cred, tempPath, None, env, files);
            ParseTemporaryCredentials(r.files[Getenv(r.env, SharedCredentialsVar)].contents)
            == Some(CredentialEntry(profile, cred.accessKeyId, cred.secretAccessKey, cred.sessionToken))
  {
    TemporaryCredentialsRoundTrip(profile, cred.accessKeyId, cred.secretAccessKey, cred.sessionToken);
  }

  /** A credential that passes the validity check leaves a temporary file
      whose access key and secret key read back non-empty. */
  lemma ValidCredentialFileHasKeys(profile: string, cred: Credentials, tempPath: string, env: Env, files: Files)
    requires IsCredentialValid(cred)
    requires '\n' !in profile && '\n' !in cred.accessKeyId && '\n' !in cred.secretAccessKey && '\n' !in cred.sessionToken
    ensures var r := WriteTemporaryCredentialFile(profile, cred, tempPath, None, env, files);
            var entry := ParseTemporaryCredentials(r.files[tempPath].contents);
            entry.Some? && entry.value.accessKey != "" && entry.value.secretKey != ""
  {
    TemporaryCredentialsRoundTrip(profile, cred.accessKeyId, cred.secretAccessKey, cred.sessionToken);
  }

  // ---------------------------------------------------------------------
  // initConfig: credentials
  // ---------------------------------------------------------------------

  /** The part of `aws.Config` the decisions read. */
  datatype AwsConfig = AwsConfig(region: string, credentials: Result<Credentials, Error>)

  /** `internal.NewSharedConfig(profile, configFiles, credentialsFiles)`. */
  type ConfigLoader = (string, seq<string>, seq<string>) -> Result<AwsConfig, Error>

  /** The SDK's default file names and the temporary file derived from them. */
  datatype SdkPaths = SdkPaths(configFile: string, credentialsFile: string)

  datatype CredentialSource = FromSharedFile(path: string) | FromTemporaryFile(path: string)

  /** The configuration chosen, where its credentials came from, the
      `awsRegion` variable afterwards, the environment and the files. */
  datatype CredentialState = CredentialState(source: CredentialSource, config: AwsConfig, region: string, env: Env, files: Files)

  const NoValidCredentials: Error := Error("[err] not found valid credentials")

  /** The default-credentials branch: load the default files, require a
      valid credential, take the region from the loaded configuration when
      no flag gave one, write the temporary file and reload from it alone. */
  function LoadDefaultCredentials(profile: string, flagRegion: string, env: Env, files: Files, paths: SdkPaths,
                                  load: ConfigLoader, tempWrite: Option<Error>): (r: Result<CredentialState, Error>)
    ensures r.Success? ==> r.value.source == FromTemporaryFile(TemporaryCredentialPath(paths.credentialsFile))
    ensures r.Success? ==> Getenv(r.value.env, SharedCredentialsVar) == r.value.source.path && r.value.source.path in r.value.files
    ensures r.Success? ==> load(profile, [paths.configFile], [paths.credentialsFile]).Success?
                           && load(profile, [paths.configFile], [paths.credentialsFile]).value.credentials.Success?
                           && IsCredentialValid(load(profile, [paths.configFile], [paths.credentialsFile]).value.credentials.value)
    ensures r.Success? ==> r.value.region == (if flagRegion != "" then flagRegion
                                              else load(profile, [paths.configFile], [paths.credentialsFile]).value.region)
    ensures load(profile, [paths.configFile], [paths.credentialsFile]).Success?
            && load(profile, [paths.configFile], [paths.credentialsFile]).value.credentials.Success?
            && !IsCredentialValid(load(profile, [paths.configFile], [paths.credentialsFile]).value.credentials.value)
            ==> r == Failure(NoValidCredentials)
  {
    var tempPath := TemporaryCredentialPath(paths.credentialsFile);
    match load(profile, [paths.configFile], [paths.credentialsFile])
    case Failure(e) => Failure(e)
    case Success(temporary) =>
      match temporary.credentials
      case Failure(e) => Failure(e)
      case Success(cred) =>
        if !IsCredentialValid(cred) then Failure(NoValidCredentials)
        else
          var region := if flagRegion == "" then temporary.region else flagRegion;
          var w := WriteTemporaryCredentialFile(profile, cred, tempPath, tempWrite, env, files);
          if w.err.Some? then Failure(w.err.value)
          else
            match load(profile, [], [tempPath])
            case Failure(e) => Failure(e)
            case Success(final) => Success(CredentialState(FromTemporaryFile(tempPath), final, region, w.env, w.files))
  }

  /** Whether the shared credentials file holds a usable credential. */
  predicate SharedFileUsable(profile: string, sharedCredFile: string, paths: SdkPaths, load: ConfigLoader) {
    sharedCredFile != ""
    && load(profile, [paths.configFile], [sharedCredFile]).Success?
    && load(profile, [paths.configFile], [sharedCredFile]).value.credentials.Success?
    && IsCredentialValid(load(profile, [paths.configFile], [sharedCredFile]).value.credentials.value)
  }

  /** The credential decision: a shared credentials file with a valid
      credential is used as it is; otherwise, after unsetting the variable
      when such a file was set, the default-credentials branch runs. A
      shared file whose configuration does not load is fatal. */
  function ChooseCredentials(profile: string, flagRegion: string, sharedCredFile: string, env: Env, files: Files,
                             paths: SdkPaths, load: ConfigLoader, tempWrite: Option<Error>): (r: Result<CredentialState, Error>)
    ensures SharedFileUsable(profile, sharedCredFile, paths, load)
            ==> r == Success(CredentialState(FromSharedFile(sharedCredFile),
                                             load(profile, [paths.configFile], [sharedCredFile]).value, flagRegion, env, files))
    ensures sharedCredFile == "" ==> r == LoadDefaultCredentials(profile, flagRegion, env, files, paths, load, tempWrite)
    ensures sharedCredFile != "" && load(profile, [paths.configFile], [sharedCredFile]).Failure?
            ==> r == Failure(load(profile, [paths.configFile], [sharedCredFile]).error)
    ensures sharedCredFile != "" && load(profile, [paths.configFile], [sharedCredFile]).Success?
            && !SharedFileUsable(profile, sharedCredFile, paths, load)
            ==> r == LoadDefaultCredentials(profile, flagRegion, env - {SharedCredentialsVar}, files, paths, load, tempWrite)
    ensures r.Success? && r.value.source.FromSharedFile? ==> SharedFileUsable(profile, sharedCredFile, paths, load)
  {
    if sharedCredFile == "" then LoadDefaultCredentials(profile, flagRegion, env, files, paths, load, tempWrite)
    else
      match load(profile, [paths.configFile], [sharedCredFile])
      case Failure(e) => Failure(e)
      case Success(shared) =>
        if shared.credentials.Success? && IsCredentialValid(shared.credentials.value) then
          Success(CredentialState(FromSharedFile(sharedCredFile), shared, flagRegion, env, files))
        else
          LoadDefaultCredentials(profile, flagRegion, env - {SharedCredentialsVar}, files, paths, load, tempWrite)
  }

  /** Whichever branch ran, the credentials variable afterwards names the
      file the configuration was loaded from: the temporary file, or the
      shared file the variable resolved to. */
  lemma CredentialVariableNamesSource(profile: string, flagRegion: string, env: Env, files: Files,
                                      abs: string -> Result<string, Error>, stat: string -> StatResult,
                                      paths: SdkPaths, load: ConfigLoader, tempWrite: Option<Error>)
    ensures var shared := ResolveSharedCredentialFile(env, abs, stat);
            var r := ChooseCredentials(profile, flagRegion, shared.path, shared.env, files, paths, load, tempWrite);
            r.Success? && r.value.source.FromTemporaryFile?
            ==> Getenv(r.value.env, SharedCredentialsVar) == r.value.source.path
                && r.value.source.path == TemporaryCredentialPath(paths.credentialsFile)
    ensures var shared := ResolveSharedCredentialFile(env, abs, stat);
            var r := ChooseCredentials(profile, flagRegion, shared.path, shared.env, files, paths, load, tempWrite);
            r.Success? && r.value.source.FromSharedFile?
            ==> r.value.env == env && abs(Getenv(r.value.env, SharedCredentialsVar)) == Success(r.value.source.path)
  {
    var shared := ResolveSharedCredentialFile(env, abs, stat);
    var r := ChooseCredentials(profile, flagRegion, shared.path, shared.env, files, paths, load, tempWrite);
    if r.Success? && r.value.source.FromSharedFile? {
      assert SharedFileUsable(profile, shared.path, paths, load);
      assert r.value.source.path == shared.path && r.value.env == shared.env;
    }
  }

  // ---------------------------------------------------------------------
  // initConfig: region
  // ---------------------------------------------------------------------

  /** The region: `awsRegion` when set, else the configuration's own region,
      else the one the user picks from the region chooser. */
  function SettleRegion(awsRegion: string, config: AwsConfig, described: Result<seq<Prompt.RegionInfo>, Error>,
                        answer: Result<string, Error>): (r: Result<string, Error>)
    requires awsRegion == "" && config.region == "" && answer.Success? ==> answer.value in Prompt.RegionOptionsAsWritten(described)
    ensures awsRegion != "" ==> r == Success(awsRegion)
    ensures awsRegion == "" && config.region != "" ==> r == Success(config.region)
    ensures r.Failure? <==> awsRegion == "" && config.region == "" && answer.Failure?
    ensures awsRegion == "" && config.region == "" && r.Success?
            ==> r == answer && r.value in Prompt.RegionOptionsAsWritten(described)
    ensures r.Success? && r.value == "" ==> awsRegion == "" && config.region == ""
  {
    if awsRegion != "" then Success(awsRegion)
    else if config.region != "" then Success(config.region)
    else Prompt.AskRegion(described, answer)
  }

  /** With no region configured, picking the blank entry the chooser offers
      after a successful lookup settles an empty region. */
  lemma BlankRegionSettled(config: AwsConfig, regions: seq<Prompt.RegionInfo>)
    requires config.region == "" && |regions| > 0
    ensures "" in Prompt.RegionOptionsAsWritten(Success(regions))
    ensures SettleRegion("", config, Success(regions), Success("")) == Success("")
  {
    Prompt.BlankRegionOffered(regions);
  }

  // ---------------------------------------------------------------------
  // initConfig
  // ---------------------------------------------------------------------

  /** `_credential` after `initConfig`. */
  datatype Credential = Credential(profile: string, config: AwsConfig, source: CredentialSource, env: Env, files: Files)

  /** `initConfig` after the plugin step: the profile, the shared file, the
      credential decision and the region. Any error ends the program. */
  function InitConfig(plugin: PluginStep, flagProfile: string, flagRegion: string, env: Env, files: Files,
                      abs: string -> Result<string, Error>, stat: string -> StatResult, paths: SdkPaths,
                      load: ConfigLoader, tempWrite: Option<Error>,
                      described: Result<seq<Prompt.RegionInfo>, Error>, answer: Result<string, Error>): (r: Result<Credential, Error>)
    requires var shared := ResolveSharedCredentialFile(env, abs, stat);
             var chosen := ChooseCredentials(ResolveAwsProfile(flagProfile, env), flagRegion, shared.path, shared.env,
                                             files, paths, load, tempWrite);
             plugin.err.None? && chosen.Success? && chosen.value.region == "" && chosen.value.config.region == ""
             && answer.Success?
             ==> answer.value in Prompt.RegionOptionsAsWritten(described)
    ensures plugin.err.Some? ==> r == Failure(plugin.err.value)
    ensures r.Success? ==> r.value.profile == ResolveAwsProfile(flagProfile, env)
    ensures r.Success? && flagRegion != "" ==> r.value.config.region == flagRegion
    ensures r.Success? && r.value.source.FromSharedFile?
            ==> r.value.source.path == ResolveSharedCredentialFile(env, abs, stat).path
                && SharedFileUsable(r.value.profile, r.value.source.path, paths, load)
    ensures r.Success? && r.value.source.FromTemporaryFile?
            ==> Getenv(r.value.env, SharedCredentialsVar) == r.value.source.path && r.value.source.path in r.value.files
  {
    if plugin.err.Some? then Failure(plugin.err.value)
    else
      var profile := ResolveAwsProfile(flagProfile, env);
      var shared := ResolveSharedCredentialFile(env, abs, stat);
      match ChooseCredentials(profile, flagRegion, shared.path, shared.env, files, paths, load, tempWrite)
      case Failure(e) => Failure(e)
      case Success(state) =>
        match SettleRegion(state.region, state.config, described, answer)
        case Failure(e) => Failure(e)
        case Success(region) =>
          Success(Credential(profile, state.config.(region := region), state.source, state.env, state.files))
  }

  /** A configuration ends up without a region only when the user picked
      the chooser's blank entry. */
  lemma EmptyRegionComesFromChooser(plugin: PluginStep, flagProfile: string, flagRegion: string, env: Env, files: Files,
                                    abs: string -> Result<string, Error>, stat: string -> StatResult, paths: SdkPaths,
                                    load: ConfigLoader, tempWrite: Option<Error>,
                                    described: Result<seq<Prompt.RegionInfo>, Error>, answer: Result<string, Error>)
    requires var shared := ResolveSharedCredentialFile(env, abs, stat);
             var chosen := ChooseCredentials(ResolveAwsProfile(flagProfile, env), flagRegion, shared.path, shared.env,
                                             files, paths, load, tempWrite);
             plugin.err.None? && chosen.Success? && chosen.value.region == "" && chosen.value.config.region == ""
             && answer.Success?
             ==> answer.value in Prompt.RegionOptionsAsWritten(described)
    ensures var r := InitConfig(plugin, flagProfile, flagRegion, env, files, abs, stat, paths, load, tempWrite, described, answer);
            r.Success? && r.value.config.region == "" ==> answer == Success("")
  {
    var r := InitConfig(plugin, flagProfile, flagRegion, env, files, abs, stat, paths, load, tempWrite, described, answer);
    if r.Success? {
      var shared := ResolveSharedCredentialFile(env, abs, stat);
      var chosen := ChooseCredentials(ResolveAwsProfile(flagProfile, env), flagRegion, shared.path, shared.env,
                                      files, paths, load, tempWrite);
      var state := chosen.value;
      var settled := SettleRegion(state.region, state.config, described, answer);
      assert r.value.config.region == settled.value;
    }
  }

  /** Region precedence in the default-credentials branch: the flag, then
      the region of the default configuration, then the reloaded
      configuration's, and the chooser only when all three are empty. */
  lemma DefaultBranchRegion(profile: string, flagRegion: string, env: Env, files: Files, paths: SdkPaths,
                            load: ConfigLoader, tempWrite: Option<Error>,
                            described: Result<seq<Prompt.RegionInfo>, Error>, answer: Result<string, Error>)
    requires LoadDefaultCredentials(profile, flagRegion, env, files, paths, load, tempWrite).Success?
    requires var state := LoadDefaultCredentials(profile, flagRegion, env, files, paths, load, tempWrite).value;
             state.region == "" && state.config.region == "" && answer.Success?
             ==> answer.value in Prompt.RegionOptionsAsWritten(described)
    ensures var state := LoadDefaultCredentials(profile, flagRegion, env, files, paths, load, tempWrite).value;
            var first := load(profile, [paths.configFile], [paths.credentialsFile]).value;
            var r := SettleRegion(state.region, state.config, described, answer);
            (flagRegion != "" ==> r == Success(flagRegion))
            && (flagRegion == "" && first.region != "" ==> r == Success(first.region))
            && (flagRegion == "" && first.region == "" && state.config.region != "" ==> r == Success(state.config.region))
            && (r.Failure? ==> flagRegion == "" && first.region == "" && state.config.region == "" && answer.Failure?)
  {
  }
}

=== FILE: session_cmd.dfy ===
/** The `start` command of `cmd/session.go`: settle the target (the trimmed
    `--target` value, validated, or the interactive chooser), start a
    session for it, hand the session to the plugin process, and terminate
    the session afterwards.

    The chooser, the service calls, the two JSON encodings and the plugin
    process are inputs holding their outcomes; the run is the trace of the
    calls made and the value returned. */
module SessionCmd {

  import opened Wrappers
  import opened Text
  import Validate
  import Discovery

  /** The part of a `StartSession` response the command reads. */
  datatype StartSessionOutput = StartSessionOutput(sessionId: string)

  datatype SessionEvent =
    | Asked                                        // the interactive chooser ran
    | Started(target: string)                      // `StartSession`
    | Spawned(process: string, args: seq<string>)  // the plugin process
    | HelperFailed(message: string)                // the plugin's error, printed
    | Terminated(sessionId: string)                // `TerminateSession`

  datatype SessionRun = SessionRun(events: seq<SessionEvent>, result: Result<(), Error>)

  const StartSessionAction: string := "StartSession"

  /** The target: the trimmed flag value when it is not empty (it must pass
      validation), otherwise the chooser's target. */
  function SessionTarget(targetFlag: string, chosen: Result<Discovery.Target, Error>): (r: Result<string, Error>)
    ensures TrimSpace(targetFlag) != "" ==>
              (r.Success? <==> Validate.MatchesInstanceIdPattern(TrimSpace(targetFlag)))
    ensures TrimSpace(targetFlag) != "" && r.Success? ==> r.value == TrimSpace(targetFlag)
    ensures TrimSpace(targetFlag) != "" && r.Failure? ==> r.error == Validate.InvalidIdError(TrimSpace(targetFlag))
    ensures TrimSpace(targetFlag) == "" ==> r == (if chosen.Success? then Success(chosen.value.name) else Failure(chosen.error))
  {
    var arg := TrimSpace(targetFlag);
    if arg != "" then
      match Validate.ValidateInstanceID(arg)
      case Failure(e) => Failure(e)
      case Success(_) => Success(arg)
    else if chosen.Success? then Success(chosen.value.name)
    else Failure(chosen.error)
  }

  /** Whether the plugin process gets started: a target, a session and
      both encodings. */
  predicate Launches(targetFlag: string, chosen: Result<Discovery.Target, Error>, started: Result<StartSessionOutput, Error>,
                     sessionJson: Result<string, Error>, paramsJson: Result<string, Error>) {
    SessionTarget(targetFlag, chosen).Success? && started.Success? && sessionJson.Success? && paramsJson.Success?
  }

  predicate NoLaunch(events: seq<SessionEvent>) {
    forall i :: 0 <= i < |events| ==> !events[i].Spawned? && !events[i].Terminated?
  }

  /** `start`. `started` is the `StartSession` outcome, `sessionJson` and
      `paramsJson` the encodings of the response and of the request,
      `helper` the plugin process's error and `terminate` the error of
      `TerminateSession`. */
  function RunSession(targetFlag: string, chosen: Result<Discovery.Target, Error>, region: string, profile: string,
                      pluginPath: string, started: Result<StartSessionOutput, Error>,
                      sessionJson: Result<string, Error>, paramsJson: Result<string, Error>,
                      helper: Option<Error>, terminate: Option<Error>): (run: SessionRun)
    ensures TrimSpace(targetFlag) != "" ==> Asked !in run.events
    ensures SessionTarget(targetFlag, chosen).Failure? ==> run.result == Failure(SessionTarget(targetFlag, chosen).error)
    ensures SessionTarget(targetFlag, chosen).Failure? ==> forall i :: 0 <= i < |run.events| ==> !run.events[i].Started?
    ensures SessionTarget(targetFlag, chosen).Success? ==> Started(SessionTarget(targetFlag, chosen).value) in run.events
    ensures !Launches(targetFlag, chosen, started, sessionJson, paramsJson) ==> NoLaunch(run.events) && run.result.Failure?
    ensures Launches(targetFlag, chosen, started, sessionJson, paramsJson)
            ==> && Spawned(pluginPath, [sessionJson.value, region, StartSessionAction, profile, paramsJson.value]) in run.events
                && run.events[|run.events| - 1] == Terminated(started.value.sessionId)
                && run.result == (if terminate.Some? then Failure(terminate.value) else Success(()))
  {
    var asked: seq<SessionEvent> := if TrimSpace(targetFlag) != "" then [] else [Asked];
    match SessionTarget(targetFlag, chosen)
    case Failure(e) => SessionRun(asked, Failure(e))
    case Success(target) =>
      var begun := asked + [Started(target)];
      match started
      case Failure(e) => SessionRun(begun, Failure(e))
      case Success(session) =>
        if sessionJson.Failure? then SessionRun(begun, Failure(sessionJson.error))
        else if paramsJson.Failure? then SessionRun(begun, Failure(paramsJson.error))
        else
          var spawned := begun + [Spawned(pluginPath, [sessionJson.value, region, StartSessionAction, profile, paramsJson.value])];
          var reported := spawned + (if helper.Some? then [HelperFailed(helper.value.message)] else []);
          SessionRun(reported + [Terminated(session.sessionId)],
                     if terminate.Some? then Failure(terminate.value) else Success(()))
  }

  /** A failing plugin process is reported and does not change the outcome:
      the session is still terminated and the result is the one the
      termination decides. */
  lemma HelperFailureStillTerminates(targetFlag: string, chosen: Result<Discovery.Target, Error>, region: string,
                                     profile: string, pluginPath: string, started: Result<StartSessionOutput, Error>,
                                     sessionJson: Result<string, Error>, paramsJson: Result<string, Error>,
                                     e: Error, terminate: Option<Error>)
    requires Launches(targetFlag, chosen, started, sessionJson, paramsJson)
    ensures var failed := RunSession(targetFlag, chosen, region, profile, pluginPath, started, sessionJson, paramsJson,
                                     Some(e), terminate);
            var clean := RunSession(targetFlag, chosen, region, profile, pluginPath, started, sessionJson, paramsJson,
                                    None, terminate);
            && failed.result == clean.result
            && |failed.events| == |clean.events| + 1
            && failed.events[|failed.events| - 2] == HelperFailed(e.message)
            && failed.events[|failed.events| - 1] == Terminated(started.value.sessionId)
  {
  }

  /** The plugin process is started once, with exactly five arguments: the
      session, the region, the action name, the profile and the request. */
  lemma HelperArgumentOrder(targetFlag: string, chosen: Result<Discovery.Target, Error>, region: string, profile: string,
                            pluginPath: string, started: Result<StartSessionOutput, Error>,
                            sessionJson: Result<string, Error>, paramsJson: Result<string, Error>,
                            helper: Option<Error>, terminate: Option<Error>)
    requires Launches(targetFlag, chosen, started, sessionJson, paramsJson)
    ensures var run := RunSession(targetFlag, chosen, region, profile, pluginPath, started, sessionJson, paramsJson,
                                  helper, terminate);
            forall i :: 0 <= i < |run.events| && run.events[i].Spawned?
              ==> run.events[i] == Spawned(pluginPath, [sessionJson.value, region, StartSessionAction, profile, paramsJson.value])
  {
    var run := RunSession(targetFlag, chosen, region, profile, pluginPath, started, sessionJson, paramsJson, helper, terminate);
    var asked: seq<SessionEvent> := if TrimSpace(targetFlag) != "" then [] else [Asked];
    var spawn := Spawned(pluginPath, [sessionJson.value, region, StartSessionAction, profile, paramsJson.value]);
    var tail := (if helper.Some? then [HelperFailed(helper.value.message)] else []) + [Terminated(started.value.sessionId)];
    assert run.events == asked + [Started(SessionTarget(targetFlag, chosen).value), spawn] + tail;
  }

  /** A `--target` given with surrounding white space is used trimmed and
      the chooser is not consulted. */
  lemma TrimmedFlagTarget(targetFlag: string, chosen: Result<Discovery.Target, Error>, region: string, profile: string,
                          pluginPath: string, started: Result<StartSessionOutput, Error>,
                          sessionJson: Result<string, Error>, paramsJson: Result<string, Error>,
                          helper: Option<Error>, terminate: Option<Error>)
    requires Validate.MatchesInstanceIdPattern(TrimSpace(targetFlag))
    ensures var run := RunSession(targetFlag, chosen, region, profile, pluginPath, started, sessionJson, paramsJson,
                                  helper, terminate);
            run.events[0] == Started(TrimSpace(targetFlag)) && Asked !in run.events
  {
    Validate.AcceptedLength(TrimSpace(targetFlag));
  }
}

=== FILE: text.dfy ===
/** String helpers standing for the parts of Go's `strings`, `sort` and
    `fmt` packages that the tool relies on: ASCII lower-casing, white-space
    trimming, joining and splitting on a separator, byte-wise lexicographic
    sorting (`sort.Strings`) and decimal rendering of a count (`%d`). */
module Text {

  import opened Wrappers

  // ---------------------------------------------------------------------
  // Lower-casing (`strings.ToLower`, restricted to ASCII letters)
  // ---------------------------------------------------------------------

  predicate IsUpper(c: char) {
    'A' <= c <= 'Z'
  }

  function LowerChar(c: char): (r: char)
    ensures !IsUpper(r)
    ensures IsUpper(c) ==> r as int == c as int + 32
    ensures !IsUpper(c) ==> r == c
  {
    if IsUpper(c) then (c as int + 32) as char else c
  }

  /** Every ASCII upper-case letter is mapped to its lower-case form and
      every other character is kept. */
  function ToLower(s: string): (r: string)
    ensures |r| == |s|
    ensures forall i :: 0 <= i < |r| ==> !IsUpper(r[i])
    ensures forall i :: 0 <= i < |s| && !IsUpper(s[i]) ==> r[i] == s[i]
    ensures forall i :: 0 <= i < |s| && IsUpper(s[i]) ==> r[i] as int == s[i] as int + 32
  {
    seq(|s|, i requires 0 <= i < |s| => LowerChar(s[i]))
  }

  /** Lower-casing changes nothing in a string without upper-case letters. */
  lemma ToLowerOfLower(s: string)
    requires forall i :: 0 <= i < |s| ==> !IsUpper(s[i])
    ensures ToLower(s) == s
  {
  }

  /** Lower-casing is idempotent. */
  lemma ToLowerIdempotent(s: string)
    ensures ToLower(ToLower(s)) == ToLower(s)
  {
    ToLowerOfLower(ToLower(s));
  }

  // ---------------------------------------------------------------------
  // White space (`unicode.IsSpace`) and `strings.TrimSpace`
  // ---------------------------------------------------------------------

  /** The characters Go's `unicode.IsSpace` reports as white space. */
  predicate IsSpace(c: char) {
    c == ' ' || c == '\t' || c == '\n' || c == '\U{000B}' || c == '\U{000C}' || c == '\r'
    || c == '\U{0085}' || c == '\U{00A0}' || c == '\U{1680}'
    || ('\U{2000}' <= c <= '\U{200A}')
    || c == '\U{2028}' || c == '\U{2029}' || c == '\U{202F}' || c == '\U{205F}' || c == '\U{3000}'
  }

  /** Number of leading white-space characters of `s`. */
  function LeadingSpace(s: string): (n: nat)
    ensures n <= |s|
    ensures forall i :: 0 <= i < n ==> IsSpace(s[i])
    ensures n < |s| ==> !IsSpace(s[n])
  {
    if |s| == 0 || !IsSpace(s[0]) then 0 else 1 + LeadingSpace(s[1..])
  }

  /** Number of trailing white-space characters of `s`. */
  function TrailingSpace(s: string): (n: nat)
    ensures n <= |s|
    ensures forall i :: |s| - n <= i < |s| ==> IsSpace(s[i])
    ensures n < |s| ==> !IsSpace(s[|s| - n - 1])
  {
    if |s| == 0 || !IsSpace(s[|s| - 1]) then 0 else 1 + TrailingSpace(s[..|s| - 1])
  }

  /** `strings.TrimSpace`: the contiguous middle of `s` left after removing
      white space at both ends. */
  function TrimSpace(s: string): (r: string)
    ensures |r| <= |s|
    ensures r == [] || (!IsSpace(r[0]) && !IsSpace(r[|r| - 1]))
    ensures exists i :: OccursAt(s, r, i) && AllSpace(s[..i]) && AllSpace(s[i + |r|..])
  {
    TrimmedMiddle(s);
    var i := LeadingSpace(s);
    var t := s[i..];
    t[..|t| - TrailingSpace(t)]
  }

  /** What is left after dropping the leading and then the trailing white
      space sits between two all-space parts of `s` and neither starts nor
      ends with white space. */
  lemma TrimmedMiddle(s: string)
    ensures var i := LeadingSpace(s);
            var t := s[i..];
            var r := t[..|t| - TrailingSpace(t)];
            && OccursAt(s, r, i) && AllSpace(s[..i]) && AllSpace(s[i + |r|..])
            && (r == [] || (!IsSpace(r[0]) && !IsSpace(r[|r| - 1])))
  {
    var i := LeadingSpace(s);
    var t := s[i..];
    var j := TrailingSpace(t);
    var r := t[..|t| - j];
    assert OccursAt(s, r, i);
    PrefixAllSpace(s, i);
    assert s[i + |r|..] == t[|t| - j..];
    SuffixAllSpace(t, j);
    if |r| > 0 {
      assert r[0] == s[i];
      assert r[|r| - 1] == t[|t| - j - 1];
    }
  }

  lemma PrefixAllSpace(s: string, n: nat)
    requires n <= |s| && forall k :: 0 <= k < n ==> IsSpace(s[k])
    ensures AllSpace(s[..n])
  {
    var head := s[..n];
    forall k | 0 <= k < |head| ensures IsSpace(head[k]) {
      assert head[k] == s[k];
    }
  }

  lemma SuffixAllSpace(s: string, n: nat)
    requires n <= |s| && forall k :: |s| - n <= k < |s| ==> IsSpace(s[k])
    ensures AllSpace(s[|s| - n..])
  {
    var tail := s[|s| - n..];
    forall k | 0 <= k < |tail| ensures IsSpace(tail[k]) {
      assert tail[k] == s[|s| - n + k];
    }
  }

  predicate AllSpace(s: string) {
    forall k :: 0 <= k < |s| ==> IsSpace(s[k])
  }

  /** A string without white space at either end is its own trim. */
  lemma TrimSpaceOfTrimmed(s: string)
    requires s == [] || (!IsSpace(s[0]) && !IsSpace(s[|s| - 1]))
    ensures TrimSpace(s) == s
  {
    if |s| > 0 {
      assert LeadingSpace(s) == 0;
      assert s[0..] == s;
      assert TrailingSpace(s) == 0;
    }
  }

  /** `sub` occurs in `s` starting at index `i`. */
  predicate OccursAt(s: string, sub: string, i: int) {
    0 <= i <= |s| - |sub| && s[i..i + |sub|] == sub
  }

  /** Trimming is idempotent. */
  lemma TrimSpaceIdempotent(s: string)
    ensures TrimSpace(TrimSpace(s)) == TrimSpace(s)
  {
    TrimSpaceOfTrimmed(TrimSpace(s));
  }

  // ---------------------------------------------------------------------
  // Joining and splitting on a separator (`strings.Join`, `strings.Split`)
  // ---------------------------------------------------------------------

  /** `strings.Join(parts, sep)`. */
  function Join(parts: seq<string>, sep: string): string {
    if |parts| == 0 then ""
    else if |parts| == 1 then parts[0]
    else parts[0] + sep + Join(parts[1..], sep)
  }

  /** Index of the first occurrence of `c` in `s`, if any. */
  function IndexOf(s: string, c: char): (r: Option<nat>)
    ensures r.None? ==> forall i :: 0 <= i < |s| ==> s[i] != c
    ensures r.Some? ==> r.value < |s| && s[r.value] == c
                        && forall i :: 0 <= i < r.value ==> s[i] != c
  {
    if |s| == 0 then None
    else if s[0] == c then Some(0)
    else match IndexOf(s[1..], c)
      case None => None
      case Some(k) => Some(k + 1)
  }

  /** The first occurrence of `c` is found right after a prefix free of it. */
  lemma IndexOfFirst(a: string, c: char, b: string)
    requires c !in a
    ensures IndexOf(a + [c] + b, c) == Some(|a|)
  {
    var s := a + [c] + b;
    assert s[|a|] == c;
    assert forall k :: 0 <= k < |a| ==> s[k] == a[k];
  }

  /** `strings.Split(s, [c])`: the pieces between occurrences of `c`. */
  function Split(s: string, c: char): (r: seq<string>)
    ensures |r| > 0
    ensures forall k :: 0 <= k < |r| ==> c !in r[k]
    decreases |s|
  {
    match IndexOf(s, c)
    case None => [s]
    case Some(i) => [s[..i]] + Split(s[i + 1..], c)
  }

  lemma SplitWithout(s: string, c: char)
    requires c !in s
    ensures Split(s, c) == [s]
  {
  }

  lemma SplitAt(a: string, c: char, b: string)
    requires c !in a
    ensures Split(a + [c] + b, c) == [a] + Split(b, c)
  {
    var s := a + [c] + b;
    assert s[|a|] == c;
    var i := IndexOf(s, c);
    assert i == Some(|a|) by {
      assert forall k :: 0 <= k < |a| ==> s[k] == a[k];
    }
    assert s[..|a|] == a;
    assert s[|a| + 1..] == b;
  }

  /** Splitting undoes joining whenever no part holds the separator. */
  lemma {:induction false} SplitJoin(parts: seq<string>, c: char)
    requires |parts| > 0
    requires forall k :: 0 <= k < |parts| ==> c !in parts[k]
    ensures Split(Join(parts, [c]), c) == parts
  {
    if |parts| == 1 {
      SplitWithout(parts[0], c);
    } else {
      SplitAt(parts[0], c, Join(parts[1..], [c]));
      SplitJoin(parts[1..], c);
      assert [parts[0]] + parts[1..] == parts;
    }
  }

  /** `sub` occurs somewhere in `s`. */
  predicate Contains(s: string, sub: string) {
    exists k :: 0 <= k <= |s| && OccursAt(s, sub, k)
  }

  lemma ContainsMiddle(a: string, sub: string, b: string)
    ensures Contains(a + sub + b, sub)
  {
    var s := a + sub + b;
    assert OccursAt(s, sub, |a|);
  }

  /** `strings.HasPrefix`. */
  predicate HasPrefix(s: string, prefix: string) {
    |prefix| <= |s| && s[..|prefix|] == prefix
  }

  lemma HasPrefixOfConcat(prefix: string, rest: string)
    ensures HasPrefix(prefix + rest, prefix)
    ensures (prefix + rest)[|prefix|..] == rest
  {
    assert (prefix + rest)[..|prefix|] == prefix;
  }

  // ---------------------------------------------------------------------
  // Lexicographic order and `sort.Strings`
  // ---------------------------------------------------------------------

  /** `a <= b` in the order Go's `sort.Strings` uses: character by character,
      a proper prefix before its extensions. */
  predicate LexLe(a: string, b: string) {
    |a| == 0 || (|b| > 0 && (a[0] < b[0] || (a[0] == b[0] && LexLe(a[1..], b[1..]))))
  }

  lemma {:induction false} LexLeTotal(a: string, b: string)
    ensures LexLe(a, b) || LexLe(b, a)
  {
    if |a| > 0 && |b| > 0 && a[0] == b[0] {
      LexLeTotal(a[1..], b[1..]);
    }
  }

  lemma {:induction false} LexLeTransitive(a: string, b: string, c: string)
    requires LexLe(a, b) && LexLe(b, c)
    ensures LexLe(a, c)
  {
    if |a| > 0 && a[0] == b[0] && b[0] == c[0] {
      LexLeTransitive(a[1..], b[1..], c[1..]);
    }
  }

  lemma {:induction false} LexLeAntisymmetric(a: string, b: string)
    requires LexLe(a, b) && LexLe(b, a)
    ensures a == b
  {
    if |a| > 0 {
      LexLeAntisymmetric(a[1..], b[1..]);
      assert a == [a[0]] + a[1..];
      assert b == [b[0]] + b[1..];
    }
  }

  /** The empty string precedes every string. */
  lemma EmptyLexLeast(s: string)
    ensures LexLe("", s)
  {
  }

  predicate Sorted(s: seq<string>) {
    forall i, j :: 0 <= i < j < |s| ==> LexLe(s[i], s[j])
  }

  /** Inserts `x` into the sorted `s` before the first element not below it. */
  function Insert(x: string, s: seq<string>): (r: seq<string>)
    requires Sorted(s)
    ensures Sorted(r)
    ensures multiset(r) == multiset(s) + multiset{x}
    ensures |r| == |s| + 1
  {
    if |s| == 0 then [x]
    else if LexLe(x, s[0]) then
      assert forall j :: 0 < j < |s| ==> LexLe(x, s[j]) by {
        forall j | 0 < j < |s| {
          LexLeTransitive(x, s[0], s[j]);
        }
      }
      [x] + s
    else
      var rest := Insert(x, s[1..]);
      assert multiset(s) == multiset{s[0]} + multiset(s[1..]) by {
        assert s == [s[0]] + s[1..];
      }
      LexLeTotal(x, s[0]);
      assert forall j :: 0 <= j < |rest| ==> LexLe(s[0], rest[j]) by {
        forall j | 0 <= j < |rest|
          ensures LexLe(s[0], rest[j])
        {
          assert rest[j] in multiset(rest);
          if rest[j] != x {
            assert rest[j] in multiset(s[1..]);
            var k :| 0 <= k < |s[1..]| && s[1..][k] == rest[j];
            assert s[k + 1] == rest[j];
          }
        }
      }
      [s[0]] + rest
  }

  /** `sort.Strings`: an ascending rearrangement of `s`. */
  function SortStrings(s: seq<string>): (r: seq<string>)
    ensures Sorted(r)
    ensures multiset(r) == multiset(s)
    ensures |r| == |s|
  {
    if |s| == 0 then []
    else
      assert s == [s[0]] + s[1..];
      Insert(s[0], SortStrings(s[1..]))
  }

  /** A sorted arrangement of a multiset is unique. */
  lemma {:induction false} SortedUnique(a: seq<string>, b: seq<string>)
    requires Sorted(a) && Sorted(b) && multiset(a) == multiset(b)
    ensures a == b
  {
    assert |a| == |multiset(a)| == |multiset(b)| == |b|;
    if |a| > 0 {
      assert a == [a[0]] + a[1..];
      assert b == [b[0]] + b[1..];
      assert a[0] in multiset(b);
      var k :| 0 <= k < |b| && b[k] == a[0];
      assert LexLe(b[0], a[0]) by {
        if k > 0 { assert LexLe(b[0], b[k]); } else { LexLeTotal(a[0], a[0]); }
      }
      assert b[0] in multiset(a);
      var m :| 0 <= m < |a| && a[m] == b[0];
      assert LexLe(a[0], b[0]) by {
        if m > 0 { assert LexLe(a[0], a[m]); } else { LexLeTotal(a[0], a[0]); }
      }
      LexLeAntisymmetric(a[0], b[0]);
      assert multiset(a) == multiset{a[0]} + multiset(a[1..]);
      assert multiset(b) == multiset{b[0]} + multiset(b[1..]);
      assert multiset(a[1..]) == multiset(a) - multiset{a[0]};
      assert multiset(b[1..]) == multiset(b) - multiset{b[0]};
      SortedUnique(a[1..], b[1..]);
    }
  }

  /** Sorting forgets the order of its input. */
  lemma SortStringsPermutationInvariant(s: seq<string>, t: seq<string>)
    requires multiset(s) == multiset(t)
    ensures SortStrings(s) == SortStrings(t)
  {
    SortedUnique(SortStrings(s), SortStrings(t));
  }

  /** Sorting preserves membership in both directions. */
  lemma SortStringsMembers(s: seq<string>, x: string)
    ensures x in SortStrings(s) <==> x in s
  {
    var r := SortStrings(s);
    assert x in r <==> x in multiset(r);
    assert x in s <==> x in multiset(s);
  }

  // ---------------------------------------------------------------------
  // Decimal rendering of a count (`%d`)
  // ---------------------------------------------------------------------

  predicate IsDigit(c: char) {
    '0' <= c <= '9'
  }

  function DigitChar(d: nat): (c: char)
    requires d < 10
    ensures IsDigit(c)
  {
    ('0' as int + d) as char
  }

  /** The decimal digits of `n`, without leading zeros. */
  function NatToString(n: nat): (r: string)
    ensures |r| > 0
    ensures forall i :: 0 <= i < |r| ==> IsDigit(r[i])
    ensures |r| > 1 ==> r[0] != '0'
  {
    if n < 10 then [DigitChar(n)] else NatToString(n / 10) + [DigitChar(n % 10)]
  }

  /** The number a string of decimal digits denotes. */
  function ParseDecimal(s: string): nat
    requires forall i :: 0 <= i < |s| ==> IsDigit(s[i])
  {
    if |s| == 0 then 0
    else
      assert IsDigit(s[|s| - 1]);
      ParseDecimal(s[..|s| - 1]) * 10 + (s[|s| - 1] as int - '0' as int)
  }

  /** Reading the rendered digits back gives the count again. */
  lemma {:induction false} ParseNatToString(n: nat)
    ensures ParseDecimal(NatToString(n)) == n
  {
    if n >= 10 {
      var r := NatToString(n);
      assert r[..|r| - 1] == NatToString(n / 10);
      ParseNatToString(n / 10);
    }
  }
}

=== FILE: validate.dfy ===
/** The instance-identifier check of `internal/validate.go`: an identifier
    is accepted exactly when it matches `^i-[0-9a-f]{8,17}$`.

    The check is modelled as the finite automaton a regular-expression
    engine runs for that pattern; `MatchesInstanceIdPattern` is the
    independent, declarative reading of the same pattern, and
    `AcceptsIffPattern` proves the two agree on every string. */
module Validate {

  import opened Wrappers
  import opened Text

  /** Bounds of the `{8,17}` repetition. */
  const MinHexDigits: nat := 8
  const MaxHexDigits: nat := 17

  /** The character class `[0-9a-f]`. */
  predicate IsLowerHex(c: char) {
    ('0' <= c <= '9') || ('a' <= c <= 'f')
  }

  /** Declarative reading of `^i-[0-9a-f]{8,17}$`: the literal `i-`, then
      8 to 17 lower-case hex digits and nothing else. */
  predicate MatchesInstanceIdPattern(s: string) {
    && |s| >= 2
    && s[0] == 'i' && s[1] == '-'
    && MinHexDigits <= |s| - 2 <= MaxHexDigits
    && forall k :: 2 <= k < |s| ==> IsLowerHex(s[k])
  }

  // ---------------------------------------------------------------------
  // The matching automaton
  // ---------------------------------------------------------------------

  /** States of the automaton: before the `i`, before the `-`, after `n`
      hex digits, or rejected for good. */
  datatype MatchState = Start | AfterI | Digits(n: nat) | Dead

  function Step(st: MatchState, c: char): MatchState {
    match st
    case Start => if c == 'i' then AfterI else Dead
    case AfterI => if c == '-' then Digits(0) else Dead
    case Digits(n) => if IsLowerHex(c) && n < MaxHexDigits then Digits(n + 1) else Dead
    case Dead => Dead
  }

  function Run(st: MatchState, s: string): MatchState
    decreases |s|
  {
    if |s| == 0 then st else Run(Step(st, s[0]), s[1..])
  }

  predicate Accepting(st: MatchState) {
    st.Digits? && st.n >= MinHexDigits
  }

  /** `instanceIDRegex.MatchString`: run the automaton over the whole string
      (both anchors) and accept in a final state. */
  predicate MatchString(s: string) {
    Accepting(Run(Start, s))
  }

  lemma {:induction false} RunDead(s: string)
    ensures Run(Dead, s) == Dead
  {
    if |s| > 0 {
      RunDead(s[1..]);
    }
  }

  /** From `Digits(n)` the automaton counts the remaining hex digits, and
      dies on a non-digit or on one digit too many. */
  lemma {:induction false} RunDigits(n: nat, s: string)
    requires n <= MaxHexDigits
    decreases |s|
    ensures (forall k :: 0 <= k < |s| ==> IsLowerHex(s[k])) && n + |s| <= MaxHexDigits
            ==> Run(Digits(n), s) == Digits(n + |s|)
    ensures !((forall k :: 0 <= k < |s| ==> IsLowerHex(s[k])) && n + |s| <= MaxHexDigits)
            ==> Run(Digits(n), s) == Dead
  {
    if |s| > 0 {
      if IsLowerHex(s[0]) && n < MaxHexDigits {
        RunDigits(n + 1, s[1..]);
        if forall k :: 0 <= k < |s[1..]| ==> IsLowerHex(s[1..][k]) {
          assert forall k :: 0 <= k < |s| ==> IsLowerHex(s[k]) by {
            forall k | 0 <= k < |s| ensures IsLowerHex(s[k]) {
              if k > 0 { assert s[k] == s[1..][k - 1]; }
            }
          }
        } else {
          var k :| 0 <= k < |s[1..]| && !IsLowerHex(s[1..][k]);
          assert !IsLowerHex(s[k + 1]);
        }
      } else {
        RunDead(s[1..]);
      }
    }
  }

  /** The automaton accepts exactly the strings the pattern describes. */
  lemma AcceptsIffPattern(s: string)
    ensures MatchString(s) <==> MatchesInstanceIdPattern(s)
  {
    if |s| == 0 {
    } else if s[0] != 'i' {
      RunDead(s[1..]);
    } else if |s| == 1 {
      assert Run(Start, s) == Run(AfterI, s[1..]);
    } else if s[1] != '-' {
      assert s[1..][1..] == s[2..];
      assert Run(Start, s) == Run(AfterI, s[1..]);
      assert Run(AfterI, s[1..]) == Run(Dead, s[2..]);
      RunDead(s[2..]);
    } else {
      assert s[1..][1..] == s[2..];
      assert Run(Start, s) == Run(Digits(0), s[2..]);
      RunDigits(0, s[2..]);
      assert (forall k :: 0 <= k < |s[2..]| ==> IsLowerHex(s[2..][k]))
             <==> (forall k :: 2 <= k < |s| ==> IsLowerHex(s[k])) by {
        forall k | 2 <= k < |s|
          ensures IsLowerHex(s[k]) <==> IsLowerHex(s[2..][k - 2])
        {
        }
      }
    }
  }

  // ---------------------------------------------------------------------
  // ValidateInstanceID
  // ---------------------------------------------------------------------

  const FormatHint: string := " (must match i-[0-9a-f]{8,17})"

  /** The error returned for a rejected identifier. */
  function InvalidIdError(id: string): Error {
    Error("invalid instance ID format: " + id + FormatHint)
  }

  /** `ValidateInstanceID`: success exactly for identifiers of the form
      `i-` followed by 8 to 17 lower-case hex digits; otherwise an error
      whose message quotes the input verbatim. */
  function ValidateInstanceID(id: string): (r: Result<(), Error>)
    ensures r.Success? <==> MatchesInstanceIdPattern(id)
    ensures r.Failure? ==> Contains(r.error.message, id)
  {
    AcceptsIffPattern(id);
    if MatchString(id) then Success(())
    else
      ContainsMiddle("invalid instance ID format: ", id, FormatHint);
      Failure(InvalidIdError(id))
  }

  // ---------------------------------------------------------------------
  // Consequences
  // ---------------------------------------------------------------------

  /** Every accepted identifier is 10 to 19 characters long. */
  lemma AcceptedLength(id: string)
    requires ValidateInstanceID(id).Success?
    ensures 10 <= |id| <= 19
  {
  }

  /** An upper-case letter or a letter past `f` anywhere in the identifier
      makes it invalid. */
  lemma RejectsNonLowerHex(id: string, k: nat)
    requires 2 <= k < |id|
    requires ('A' <= id[k] <= 'Z') || ('g' <= id[k] <= 'z')
    ensures ValidateInstanceID(id).Failure?
  {
  }

  /** The identifiers the repository's test table expects to be accepted:
      the shortest and the longest digit runs, and a typical identifier. */
  lemma AcceptedTestVectors(id: string)
    requires id == "i-0a1b2c3d" || id == "i-0a1b2c3d4e5f67890" || id == "i-0abc123def456789a"
    ensures ValidateInstanceID(id).Success?
  {
    forall k | 2 <= k < |id| ensures IsLowerHex(id[k]) {
    }
    assert MatchesInstanceIdPattern(id);
  }

  /** The identifiers the repository's test table expects to be rejected:
      empty, wrong or missing prefix, too few or too many digits, a non-hex
      letter, upper-case hex and the bare prefix. */
  lemma RejectedTestVectors()
    ensures ValidateInstanceID("").Failure?
    ensures ValidateInstanceID("x-0a1b2c3d").Failure?
    ensures ValidateInstanceID("0a1b2c3d").Failure?
    ensures ValidateInstanceID("i-0a1b2c").Failure?
    ensures ValidateInstanceID("i-0a1b2c3d4e5f678901").Failure?
    ensures ValidateInstanceID("i-0a1b2c3g").Failure?
    ensures ValidateInstanceID("i-0A1B2C3D").Failure?
    ensures ValidateInstanceID("i-").Failure?
  {
    assert !IsLowerHex("i-0a1b2c3g"[9]);
    assert !IsLowerHex("i-0A1B2C3D"[3]);
  }
}

=== FILE: wrappers.dfy ===
/** Failure-compatible wrappers shared by every module of the model.
    `Option` stands for a Go pointer that may be nil, `Result` for the
    `(value, error)` pair that Go functions return. */
module Wrappers {

  datatype Option<+T> = None | Some(value: T) {

    /** The value, or the given default when absent. */
    function GetOr(default: T): T {
      match this
      case Some(v) => v
      case None => default
    }
  }

  datatype Result<+T, +E> = Success(value: T) | Failure(error: E) {

    predicate IsFailure() {
      Failure?
    }

    function PropagateFailure<U>(): Result<U, E>
      requires Failure?
    {
      Failure(error)
    }

    function Extract(): T
      requires Success?
    {
      value
    }
  }

  /** An error as Go reports it: only its message is observable. */
  datatype Error = Error(message: string)

  /** `aws.ToString`: the pointed-to string, or "" for a nil pointer. */
  function ToString(p: Option<string>): string {
    p.GetOr("")
  }
}
